=== FILE: README.md ===
# Cricsheet match data: transformation and query-file model

This project models the transformation core of the Cricsheet match-data pipeline in
Dafny and proves properties of it. The pipeline turns Cricsheet JSON match files
into per-format SQL tables. Four parts are covered:

- **Match metadata** (`transform_load.py`, `parse_match_metadata`). A decoded match
  document becomes one normalised match row. Its `match_id` is built from the data
  version, the first date and the event name, extended with the teams in some
  cases, and then sanitised. Modules `MatchId` and `Metadata`.
- **Delivery flattening** (`parse_deliveries`). Every ball of every over of every
  innings becomes one delivery row. The row's `delivery_id` is
  `{match_id}_{inning}_{over}.{ball}`. Module `Deliveries`.
- **Per-format collection** (`process_and_load_data`). A pure fold over the format
  folders and their files. A file contributes a match frame and a delivery frame,
  or nothing when it cannot be decoded or parsed. A format with at least one
  parsed file yields a `{format}_matches` / `{format}_deliveries` table pair.
  Module `Pipeline`.
- **Named-query reader** (`run_analysis.py`, `load_queries_from_sql`). Reads a SQL
  file whose blocks are introduced by `-- name:` lines. It is modelled twice and
  the two are proved equal:
  - the line-by-line state machine the code runs;
  - an independent definition that cuts the file into blocks and stores them in
    order.

  Module `SqlQueries`.

Shared pieces:

- `Wrappers` holds `Option` and `Result`.
- `Text` models the Python string operations the code uses, with their laws:
  - `count`, `replace`, `join`, `split`, `strip` (with Python's full `isspace`
    set), `startswith`, `endswith`;
  - `str(int)`.
- `Document` holds the decoded JSON document and the two row shapes.

A JSON key read with an empty `[]` or `{}` default is a plain sequence or record,
because an absent key and an empty value behave the same in the code. A key with
a non-empty default is an `Option`.

## Model

| member | source | states |
|---|---|---|
| MatchId.Sanitise | transform_load.py:31 | the cleaned id contains no space, `/`, `.` or `-`, and an id that has none of them is left unchanged |
| MatchId.SanitiseIsPerCharacter | transform_load.py:31 | the four chained replacements equal a per-character rewrite (space, `/`, `-` become `_`; `.` is deleted) |
| MatchId.SanitiseLength | transform_load.py:31 | periods are deleted rather than replaced: the cleaned id is shorter by exactly the number of periods |
| MatchId.SanitiseAtHyphen | transform_load.py:31 | a hyphen between two pieces becomes an underscore between their cleaned forms |
| MatchId.SanitiseAtPeriod | transform_load.py:31 | a period between two pieces vanishes, leaving the cleaned pieces adjacent |
| MatchId.SanitiseIdempotent | transform_load.py:31 | cleaning an already cleaned id changes nothing |
| MatchId.FirstDate | transform_load.py:24 | the first date is the default `1970-01-01` when `dates` is absent, the first element when it is non-empty, and an error exactly when it is an empty list |
| MatchId.SynthesiseMatchId | transform_load.py:24-31 | the id fails exactly when `dates` is an empty list; otherwise it is clean |
| MatchId.BaseId | transform_load.py:24 | the joined id has the two joining underscores plus those inside version, date and event name (or their defaults) |
| MatchId.BaseIdParts | transform_load.py:24 | the id joins version, first date and event name in that order: split at `_` it gives the pieces of each part in turn, and exactly the three parts when none holds an `_` of its own |
| MatchId.WithTeams | transform_load.py:27-28 | the id is only ever extended; it changes exactly when it has fewer than three underscores and there are teams, and then the added text is `_` followed by the teams joined with `_vs_` |
| MatchId.TeamsSuffixCondition | transform_load.py:27-28 | the `_vs_`-joined teams are appended exactly when there are teams and none of version, first date and event name contains an underscore, i.e. exactly when the underscore count is below 3 |
| MatchId.DefaultsFillIn | transform_load.py:24 | for each of version, `dates` and event name separately, whatever the other keys hold, an absent key gives the same id as its default `v0`, `['1970-01-01']` or `UnknownEvent` being present |
| Metadata.Prefix4 | transform_load.py:37 | `[:4]` is a prefix of length four, or the whole string when it is shorter |
| Metadata.Season | transform_load.py:37 | the season is `1970` when `dates` is absent, else the first (up to) four characters of the first date |
| Metadata.MatchRowOf | transform_load.py:34-48 | each field of the row is its key's value, or its `.get` default when the key is absent: venue `Unknown Venue`, gender `male`, winner `No Result`, margins 0, toss fields null; season is a prefix of the row's date |
| Metadata.DropDuplicateIds | transform_load.py:50 | the result is the input's rows that are the first with their id, in input order (`FirstRows`); it has distinct ids, keeps every id, and leaves a frame of at most one row unchanged |
| Metadata.ParseMatchMetadata | transform_load.py:18-50 | fails exactly when `dates` is an empty list; otherwise exactly one row, of this format, whose `match_id` is the returned id, the clean synthesised id, and whose date is the first date; that row is `MatchRowOf`'s row, so all of its defaults hold of it |
| Deliveries.ShowOpt | transform_load.py:68 | a rendered inning or over number (`None` or digits) contains neither `_` nor `.` |
| Deliveries.ShowOptRoundTrip | transform_load.py:68 | a rendered inning or over number reads back to the same optional number |
| Deliveries.DeliveryId | transform_load.py:68 | the id opens with the match id and an `_` |
| Deliveries.DeliveryIdRoundTrip | transform_load.py:68 | every delivery id decodes, cutting at the last `.` and the last two `_`, to its match id, inning, over and ball, whatever the match id contains |
| Deliveries.DeliveryIdInjective | transform_load.py:68 | two ids are equal only when match id, inning, over and ball all agree |
| Deliveries.ExtrasType | transform_load.py:92 | the extras type is null exactly when the extras mapping is empty; otherwise it is the mapping's first key |
| Deliveries.MakeRow | transform_load.py:68-96 | the row carries the match id; `is_wicket` is 1 exactly when there are dismissals; the extras type is null exactly when there are no extras |
| Deliveries.MakeRowFields | transform_load.py:68-96 | a row carries the match id and an id that decodes to its own inning, over and ball; each field is its key or the default (ball 0, runs 0); `is_wicket` is 1 exactly when there are dismissals, and kind and player out come from the first one; the extras type is the first extras key |
| Deliveries.OnlyFirstWicketAndExtra | transform_load.py:71-92 | two deliveries that agree on everything except dismissals after the first and extras after the first give the same row |
| Deliveries.BallRows | transform_load.py:65-96 | one over gives one row per delivery, each carrying the match id |
| Deliveries.OversRows | transform_load.py:62-96 | every row of an inning's overs carries the match id |
| Deliveries.InningsRows | transform_load.py:57-98 | every row of the innings carries the match id |
| Deliveries.BallRowsAt | transform_load.py:65-96 | one over yields one row per delivery, and row k is the row of delivery k |
| Deliveries.RowCount | transform_load.py:57-96 | the number of delivery rows is the total number of deliveries over all overs of all innings |
| Deliveries.OversRowsMembers | transform_load.py:62-96 | a row is produced for an inning exactly when it is the row of some delivery of some over of it |
| Deliveries.RowsAreDeliveries | transform_load.py:57-96 | a row is produced exactly when it is the row of some delivery at some inning, over and position |
| Deliveries.RowsCarryMatchId | transform_load.py:68-81 | every row carries the given match id, and its delivery id decodes to that match id and the row's inning, over and ball |
| Deliveries.DeliveryIdsCanRepeat | transform_load.py:68 | two deliveries of one over that lack a `ball` key get the same delivery id, so ids are not unique |
| Deliveries.AppendOver | transform_load.py:65-96 | the innermost loop appends exactly the rows of the over's deliveries, in order |
| Deliveries.AppendInning | transform_load.py:62-96 | the middle loop appends exactly the rows of the inning's overs, in order |
| Deliveries.ParseDeliveries | transform_load.py:53-98 | the loops produce exactly the flattened rows, one per delivery, all carrying the given match id |
| Pipeline.Ingest | transform_load.py:130-145 | a file yields frames exactly when it decodes and its `dates` is not an empty list; then one match row of this format whose id is the synthesised match id, and as delivery frame exactly the flattened rows `InningsRows` of that id, one per delivery |
| Pipeline.IngestDeliveries | transform_load.py:136-140 | a row is in a file's delivery frame exactly when it is the row of some delivery of the document |
| Pipeline.Absorb | transform_load.py:127-140 | a file adds one match frame and one delivery frame exactly when it is a `.json` file that parses, and the frames already collected are kept as they were |
| Pipeline.Collect | transform_load.py:125-145 | every collected match frame is one row of this format, paired with the delivery frame of that match |
| Pipeline.AbsorbKeepsCollected | transform_load.py:127-140 | adding one more file keeps the frames paired and of this format |
| Pipeline.CollectCounts | transform_load.py:125-145 | one match frame and one delivery frame per `.json` file that parses: a file contributes both or neither |
| Pipeline.CollectBalls | transform_load.py:125-145 | the delivery frames of a folder hold, together, one row per delivery of every `.json` file that parses |
| Pipeline.CollectAppend | transform_load.py:125-145 | collecting is a fold: the frames of two runs of files are those of each run side by side, so no file affects another's contribution |
| Pipeline.Materialise | transform_load.py:159-175 | no tables exactly when there are no frames; otherwise tables of this format whose rows are exactly the rows of the frames, with as many rows as all frames together, so no row is dropped or merged |
| Pipeline.FlattenMembers | transform_load.py:166 | a row is in the concatenated table exactly when it is in one of the frames |
| Pipeline.FlattenLength | transform_load.py:166 | the concatenation has exactly as many rows as all frames together |
| Pipeline.FlattenAppend | transform_load.py:166 | concatenating two runs of frames gives the first run's rows followed by the second's, and one frame gives its own rows, so the concatenation keeps every row in frame order |
| Pipeline.FlattenSingletons | transform_load.py:166 | concatenating one-row frames gives one row per frame, in order |
| Pipeline.FormatTables | transform_load.py:159-175 | a format yields no tables exactly when no file parsed; otherwise one match row per parsed file, all of this format, every delivery row's match id is that of some match row, and the delivery table has one row per delivery of every parsed file |
| Pipeline.CollectTwice | transform_load.py:135-140 | two `.json` files with the same parsable content contribute the same frames twice |
| Pipeline.TwoFramesTwoRows | transform_load.py:166 | two copies of one one-row frame concatenate to two equal rows |
| Pipeline.DuplicateFilesKeepBothRows | transform_load.py:135-140 | match rows are not deduplicated across files: the same match parsed twice gives two rows with one id |
| Pipeline.ProcessAndLoad | transform_load.py:113-175 | no more table pairs than directory entries |
| Pipeline.ProcessAndLoadAppend | transform_load.py:113-175 | entries are loaded one by one in listing order: two runs of entries give the first run's tables followed by the second's |
| Pipeline.ProcessAndLoadOne | transform_load.py:113-175 | one entry gives its own table pair when it yields one, and nothing otherwise |
| Pipeline.LoadedFormats | transform_load.py:113-175 | a table pair is loaded exactly when some format folder yields it; plain files yield nothing |
| SqlQueries.TagHasColon | run_analysis.py:26-32 | a tag line always contains the `:` that the name is split at |
| SqlQueries.TagName | run_analysis.py:32 | the name has no outer whitespace and no `:` |
| SqlQueries.TagNameOf | run_analysis.py:32 | the name is the text between the line's first and second `:` (or the end of the line), stripped |
| SqlQueries.BodyLines | run_analysis.py:35-38 | a text is kept exactly when it is the stripped form of some input line and is non-empty and not a `--` comment; kept lines are trimmed and never more than the input lines |
| SqlQueries.JoinBodyTrimmed | run_analysis.py:29 | the kept lines joined by single spaces are non-empty with no outer whitespace, so the final `.strip()` changes nothing |
| SqlQueries.Save | run_analysis.py:28-29 | the name is stored exactly when it is non-empty and has body lines; every other stored name keeps its query |
| SqlQueries.Step | run_analysis.py:26-38 | a tag line starts a new, empty block under its name; any other line keeps the stored queries and the name, is ignored before the first tag, and otherwise appends its stripped form or nothing |
| SqlQueries.Run | run_analysis.py:25-38 | the reader has a current name exactly when it had one or a tag line occurred; with no tag line the stored queries and the name are unchanged |
| SqlQueries.Finish | run_analysis.py:41-42 | the final save keeps every stored name and stores the current one when it is non-empty and has lines |
| SqlQueries.LoadQueries | run_analysis.py:17-50 | every stored name and every stored query is non-empty with no outer whitespace; an unreadable file gives no queries |
| SqlQueries.RunKeepsWellFormed | run_analysis.py:25-42 | the reading loop keeps its state well formed up to the final save |
| SqlQueries.LoadQueriesIsAssemble | run_analysis.py:17-44 | the line-by-line reader stores exactly the file's blocks, first to last |
| SqlQueries.LastBlockWins | run_analysis.py:28-32 | when a name occurs in several stored blocks, the last block's joined lines are its query |
| SqlQueries.PreambleIgnored | run_analysis.py:34 | lines before the first `-- name:` tag make no difference |
| SqlQueries.NoTagsNoQueries | run_analysis.py:25-44 | a file with no tag line gives no queries |
| SqlQueries.LoadedNames | run_analysis.py:28-42 | a name is loaded exactly when some block carries it and keeps at least one line; a block with an empty name or no lines is dropped |
| Text.Count | transform_load.py:27 | the count is at most the length, and zero exactly when the character does not occur |
| Text.CountConcat | transform_load.py:27 | counting distributes over concatenation |
| Text.Replace | transform_load.py:31 | a one-character text becomes the replacement when it is the pattern and is kept otherwise; the replaced character survives only through the replacement text, and a string without it is unchanged |
| Text.ReplaceConcat | transform_load.py:31 | replacing distributes over concatenation |
| Text.Join | transform_load.py:28 | joining nothing gives the empty text, one part gives that part, and otherwise the length is the parts' lengths plus one separator between each two |
| Text.Split | run_analysis.py:32 | there is at least one segment and none contains the separator; a text without it is one segment, one with it at least two |
| Text.JoinSplit | run_analysis.py:32 | splitting on a character and joining back with it gives the original string |
| Text.SplitJoin | run_analysis.py:32 | joining separator-free segments and splitting again gives the segments back |
| Text.SplitSecond | run_analysis.py:32 | the second segment of a split is the text between the first and second separator |
| Text.SplitConcat | run_analysis.py:32 | splitting text joined at a separator gives the left part's segments followed by the right part's |
| Text.Strip | run_analysis.py:36 | the stripped text has no leading or trailing whitespace |
| Text.StripIsTrim | run_analysis.py:36 | stripping removes only whitespace, and only at the two ends: the result is a contiguous slice of the input |
| Text.StripIdempotent | run_analysis.py:36 | stripping twice is stripping once |
| Text.IntToString | transform_load.py:68 | `str(int)` is non-empty, a digit or `-` first and digits after it, with no leading zero (a lone `0` aside, and never `-0`) |
| Text.ParseIntToString | transform_load.py:68 | an integer rendered as in an f-string parses back to itself |

## Left out

- File and directory I/O are not modelled. This covers `os.listdir`, `os.path.isdir`, `open`, reading lines, the `.json` name filter's directory side and `os.makedirs`. Folder contents and query-file lines arrive as values.
- JSON decoding is modelled only as its outcome, `Pipeline.Source`: a decoded document, or `Unreadable` for `JSONDecodeError` and unreadable files.
- Values of the wrong JSON type (a number where a string is read, say) cannot be represented in the typed document. The `TypeError`/`AttributeError` paths they would take are therefore not modelled. The one runtime error that typed data can still raise, `dates` being an empty list, is modelled.
- A key that is present with the JSON value `null` (under `venue`, `gender`, `outcome.winner` or `by.runs`, say) makes `.get` return `None`, which the code stores as a NULL column rather than the default. The typed document cannot tell `null` from an absent key, so the model gives the default in both cases.
- pandas mechanics are reduced to sequences of rows: DataFrame construction, `ignore_index`, and column dtypes.
- The SQLAlchemy engine and `to_sql` are not modelled. Neither are the table replacement and the database-error path at lines 157-187.
- Printing and the loaded-row counters are not modelled.
- `run_analysis.py` beyond `load_queries_from_sql` is not part of this model: query execution and CSV export.
- `scrape_data.py` and `data_visuals.py` are not part of this model.
- `Pipeline.ProcessAndLoad`: the per-format dictionaries are keyed by folder name. The model keeps the folders as a sequence in listing order, because names in one directory listing are distinct.
- `SqlQueries.LoadQueries`: exceptions other than a missing file (a decoding error while reading, say) are folded into the same `None` input, which gives no queries, as the code's second handler does.
- Lines arrive without their line terminator. A trailing newline is whitespace to `strip` and would change nothing.
- `Metadata.MatchRowOf`: `teams_str` is stated only for zero or one team. `player_of_match` is not stated at all. For more names both are the `, `-joined list, which the contract does not restate.
- `Deliveries.ExtrasType`: a JSON object's key order is kept as a sequence of pairs. Duplicate keys, which `json.load` collapses, are not excluded.

## Behaviour worth knowing

- The id's periods are deleted, not replaced by underscores (`MatchId.SanitiseLength`, `MatchId.SanitiseAtPeriod`).
- The teams suffix is added when `match_id.count('_') < 3` and there are teams. The count is taken before sanitising, on the raw joined id (`MatchId.TeamsSuffixCondition`).
- The delivery id separates inning and over with `_`: `{match_id}_{inning}_{over}.{ball}` (`Deliveries.DeliveryIdRoundTrip`).
- Delivery ids are not unique within a document: deliveries without a `ball` key all render ball `0` (`Deliveries.DeliveryIdsCanRepeat`).
- Duplicate match ids are dropped only within the single one-row frame of line 50. Files of one format are not deduplicated against each other (`Pipeline.DuplicateFilesKeepBothRows`).
- When `outcome.winner` is absent the winner is `No Result`; otherwise it is the key's value (`Metadata.MatchRowOf`). The code never reads `outcome.result`, so a draw or an abandonment is not recorded as such.

=== FILE: deliveries.dfy ===
/** Ball-by-ball flattening (`transform_load.py`, `parse_deliveries`, lines 53-98):
    innings, then overs, then deliveries, one row per delivery in document order. */
module Deliveries {
  import opened Wrappers
  import opened Text
  import opened Document

  // ---------------------------------------------------------------- delivery id

  /** How an f-string renders an optional integer: the digits, or `None`. */
  function ShowOpt(o: Option<int>): (s: string)
    ensures '_' !in s && '.' !in s
  {
    match o
    case None => "None"
    case Some(n) =>
      var t := IntToString(n);
      assert forall i :: 0 <= i < |t| ==> t[i] != '_' && t[i] != '.';
      t
  }

  /** Reads back what `ShowOpt` renders; `None` when the text is neither form. */
  function ParseOpt(s: string): Option<Option<int>>
  {
    if s == "None" then Some(None)
    else match ParseInt(s)
      case None => None
      case Some(n) => Some(Some(n))
  }

  lemma ShowOptRoundTrip(o: Option<int>)
    ensures ParseOpt(ShowOpt(o)) == Some(o)
  {
    if o.Some? {
      var t := IntToString(o.value);
      assert t != "None" by { assert t[0] != 'N'; }
      ParseIntToString(o.value);
    }
  }

  /** Splits an id back into its four parts, cutting at the last `.` and then at the
      last two `_`; the match id itself may contain both characters. */
  function DecodeDeliveryId(s: string): (r: Option<(string, Option<int>, Option<int>, int)>)
  {
    match SplitLast(s, '.')
    case None => None
    case Some((head, ballText)) =>
      match SplitLast(head, '_')
      case None => None
      case Some((head2, overText)) =>
        match SplitLast(head2, '_')
        case None => None
        case Some((matchId, inningText)) =>
          match (ParseOpt(inningText), ParseOpt(overText), ParseInt(ballText))
          case (Some(inning), Some(over), Some(ball)) => Some((matchId, inning, over, ball))
          case _ => None
  }

  /** Line 68: `{match_id}_{inning_number}_{over_number}.{ball}`. The id opens with
      the match id and an `_`. */
  function DeliveryId(matchId: string, inning: Option<int>, over: Option<int>, ball: int): (id: string)
    ensures StartsWith(id, matchId + "_")
  {
    var head, rest := matchId + "_", ShowOpt(inning) + "_" + ShowOpt(over) + "." + IntToString(ball);
    assert (head + rest)[..|head|] == head;
    head + rest
  }

  /** Every id decodes to the parts it was built from, whatever the match id holds. */
  lemma DeliveryIdRoundTrip(matchId: string, inning: Option<int>, over: Option<int>, ball: int)
    ensures DecodeDeliveryId(DeliveryId(matchId, inning, over, ball)) == Some((matchId, inning, over, ball))
  {
    var i, o, b := ShowOpt(inning), ShowOpt(over), IntToString(ball);
    var head2 := matchId + "_" + i;
    var head := head2 + "_" + o;
    var id := DeliveryId(matchId, inning, over, ball);
    assert SplitLast(id, '.') == Some((head, b)) by {
      assert '.' !in b by { assert forall k :: 0 <= k < |b| ==> b[k] != '.'; }
      DeliveryIdShape(matchId, inning, over, ball);
      SplitLastOfConcat(head, b, '.');
    }
    assert SplitLast(head, '_') == Some((head2, o)) by {
      assert head == head2 + ['_'] + o;
      SplitLastOfConcat(head2, o, '_');
    }
    assert SplitLast(head2, '_') == Some((matchId, i)) by {
      assert head2 == matchId + ['_'] + i;
      SplitLastOfConcat(matchId, i, '_');
    }
    ShowOptRoundTrip(inning);
    ShowOptRoundTrip(over);
    ParseIntToString(ball);
  }

  /** The id is the match id, the inning and the over joined by `_`, then `.` and the ball. */
  lemma DeliveryIdShape(matchId: string, inning: Option<int>, over: Option<int>, ball: int)
    ensures DeliveryId(matchId, inning, over, ball)
         == matchId + "_" + ShowOpt(inning) + "_" + ShowOpt(over) + ['.'] + IntToString(ball)
  {
    var i, o, b := ShowOpt(inning), ShowOpt(over), IntToString(ball);
    assert matchId + "_" + (i + "_" + o + "." + b) == matchId + "_" + i + "_" + o + ['.'] + b;
  }

  /** Two deliveries share an id only when all four parts agree. */
  lemma DeliveryIdInjective(m1: string, i1: Option<int>, o1: Option<int>, b1: int,
                            m2: string, i2: Option<int>, o2: Option<int>, b2: int)
    requires DeliveryId(m1, i1, o1, b1) == DeliveryId(m2, i2, o2, b2)
    ensures m1 == m2 && i1 == i2 && o1 == o2 && b1 == b2
  {
    DeliveryIdRoundTrip(m1, i1, o1, b1);
    DeliveryIdRoundTrip(m2, i2, o2, b2);
  }

  // ---------------------------------------------------------------- one row

  /** `list(extras.keys())[0] if extras else None`. */
  function ExtrasType(extras: seq<(string, int)>): (r: Option<string>)
    ensures r.None? <==> |extras| == 0
    ensures r.Some? ==> r.value == extras[0].0
  {
    if |extras| == 0 then None else Some(extras[0].0)
  }

  /** Lines 68-96: the row of delivery `d`, bowled in over `over` of inning `inn`. */
  function MakeRow(matchId: string, inn: Inning, over: Option<int>, d: Delivery): (r: DeliveryRow)
    ensures r.matchId == matchId
    ensures r.isWicket == 1 <==> |d.wickets| > 0
    ensures r.extrasType.None? <==> |d.extras| == 0
  {
    var ball := d.ball.GetOr(0);
    var hasWicket := |d.wickets| > 0;
    DeliveryRow(
      deliveryId := DeliveryId(matchId, inn.number, over, ball),
      matchId := matchId,
      inning := inn.number,
      battingTeam := inn.team,
      bowlingTeam := d.bowlerTeam,
      over := over,
      ball := ball,
      batter := d.batter,
      bowler := d.bowler,
      runsBatter := d.runs.batter.GetOr(0),
      runsExtras := d.runs.extras.GetOr(0),
      runsTotal := d.runs.total.GetOr(0),
      extrasType := ExtrasType(d.extras),
      isWicket := if hasWicket then 1 else 0,
      wicketKind := if hasWicket then d.wickets[0].kind else None,
      playerOut := if hasWicket then d.wickets[0].playerOut else None)
  }

  /** What a row holds: its match, an id that decodes to the row's own position
      fields, each key of the delivery or its default, and the first dismissal and
      first extras key when there are any. */
  lemma MakeRowFields(matchId: string, inn: Inning, over: Option<int>, d: Delivery)
    ensures var r := MakeRow(matchId, inn, over, d);
      && r.matchId == matchId
      && DecodeDeliveryId(r.deliveryId) == Some((matchId, inn.number, over, r.ball))
      && r.inning == inn.number && r.battingTeam == inn.team && r.over == over
      && r.bowlingTeam == d.bowlerTeam && r.batter == d.batter && r.bowler == d.bowler
      && (d.ball.None? ==> r.ball == 0)
      && (d.ball.Some? ==> r.ball == d.ball.value)
      && (d.runs.batter.None? ==> r.runsBatter == 0)
      && (d.runs.batter.Some? ==> r.runsBatter == d.runs.batter.value)
      && (d.runs.extras.None? ==> r.runsExtras == 0)
      && (d.runs.extras.Some? ==> r.runsExtras == d.runs.extras.value)
      && (d.runs.total.None? ==> r.runsTotal == 0)
      && (d.runs.total.Some? ==> r.runsTotal == d.runs.total.value)
      && (r.isWicket == 1 <==> |d.wickets| > 0)
      && (r.isWicket == 0 <==> |d.wickets| == 0)
      && (|d.wickets| == 0 ==> r.wicketKind.None? && r.playerOut.None?)
      && (|d.wickets| > 0 ==> r.wicketKind == d.wickets[0].kind && r.playerOut == d.wickets[0].playerOut)
      && (r.extrasType.None? <==> |d.extras| == 0)
      && (|d.extras| > 0 ==> r.extrasType == Some(d.extras[0].0))
  {
    DeliveryIdRoundTrip(matchId, inn.number, over, d.ball.GetOr(0));
  }

  /** Only the first dismissal and the first extras key reach the row: deliveries
      that agree on everything else and on those two produce the same row. */
  lemma OnlyFirstWicketAndExtra(matchId: string, inn: Inning, over: Option<int>, d1: Delivery, d2: Delivery)
    requires d1.(wickets := [], extras := []) == d2.(wickets := [], extras := [])
    requires |d1.wickets| > 0 <==> |d2.wickets| > 0
    requires |d1.wickets| > 0 ==> d1.wickets[0] == d2.wickets[0]
    requires |d1.extras| > 0 <==> |d2.extras| > 0
    requires |d1.extras| > 0 ==> d1.extras[0].0 == d2.extras[0].0
    ensures MakeRow(matchId, inn, over, d1) == MakeRow(matchId, inn, over, d2)
  {
    assert d1.ball == d2.ball && d1.runs == d2.runs;
  }

  // ---------------------------------------------------------------- flattening

  /** The rows of the deliveries `ds` of one over, in order. */
  function BallRows(matchId: string, inn: Inning, over: Option<int>, ds: seq<Delivery>): (r: seq<DeliveryRow>)
    ensures |r| == |ds|
    ensures forall row :: row in r ==> row.matchId == matchId
    decreases |ds|
  {
    if |ds| == 0 then []
    else BallRows(matchId, inn, over, ds[..|ds| - 1]) + [MakeRow(matchId, inn, over, ds[|ds| - 1])]
  }

  /** Row `k` of an over is the row of its delivery `k`. */
  lemma {:induction false} BallRowsAt(matchId: string, inn: Inning, over: Option<int>, ds: seq<Delivery>, k: nat)
    requires k < |ds|
    ensures BallRows(matchId, inn, over, ds)[k] == MakeRow(matchId, inn, over, ds[k])
    decreases |ds|
  {
    if k < |ds| - 1 {
      BallRowsAt(matchId, inn, over, ds[..|ds| - 1], k);
    }
  }

  /** The rows of the overs `overs` of inning `inn`, over after over. */
  function OversRows(matchId: string, inn: Inning, overs: seq<Over>): (r: seq<DeliveryRow>)
    ensures forall row :: row in r ==> row.matchId == matchId
    decreases |overs|
  {
    if |overs| == 0 then []
    else
      var last := overs[|overs| - 1];
      OversRows(matchId, inn, overs[..|overs| - 1]) + BallRows(matchId, inn, last.number, last.deliveries)
  }

  /** The rows of the innings `innings`, inning after inning: what line 98 returns. */
  function InningsRows(matchId: string, innings: seq<Inning>): (r: seq<DeliveryRow>)
    ensures forall row :: row in r ==> row.matchId == matchId
    decreases |innings|
  {
    if |innings| == 0 then []
    else
      var last := innings[|innings| - 1];
      InningsRows(matchId, innings[..|innings| - 1]) + OversRows(matchId, last, last.overs)
  }

  // ---------------------------------------------------------------- counting

  /** The number of deliveries listed in `overs`. */
  function BallsInOvers(overs: seq<Over>): nat
  {
    if |overs| == 0 then 0 else |overs[0].deliveries| + BallsInOvers(overs[1..])
  }

  /** The number of deliveries listed in `innings`. */
  function BallCount(innings: seq<Inning>): nat
  {
    if |innings| == 0 then 0 else BallsInOvers(innings[0].overs) + BallCount(innings[1..])
  }

  lemma {:induction false} BallsInOversLast(overs: seq<Over>)
    requires |overs| > 0
    ensures BallsInOvers(overs) == BallsInOvers(overs[..|overs| - 1]) + |overs[|overs| - 1].deliveries|
    decreases |overs|
  {
    if |overs| > 1 {
      var rest := overs[1..];
      assert overs[..|overs| - 1][1..] == rest[..|rest| - 1];
      BallsInOversLast(rest);
    }
  }

  lemma {:induction false} BallCountLast(innings: seq<Inning>)
    requires |innings| > 0
    ensures BallCount(innings) == BallCount(innings[..|innings| - 1]) + BallsInOvers(innings[|innings| - 1].overs)
    decreases |innings|
  {
    if |innings| > 1 {
      var rest := innings[1..];
      assert innings[..|innings| - 1][1..] == rest[..|rest| - 1];
      BallCountLast(rest);
    }
  }

  lemma {:induction false} OversRowsCount(matchId: string, inn: Inning, overs: seq<Over>)
    ensures |OversRows(matchId, inn, overs)| == BallsInOvers(overs)
    decreases |overs|
  {
    if |overs| > 0 {
      OversRowsCount(matchId, inn, overs[..|overs| - 1]);
      BallsInOversLast(overs);
    }
  }

  /** One row per delivery: the row count is the sum of the `deliveries` lengths. */
  lemma {:induction false} RowCount(matchId: string, innings: seq<Inning>)
    ensures |InningsRows(matchId, innings)| == BallCount(innings)
    decreases |innings|
  {
    if |innings| > 0 {
      var last := innings[|innings| - 1];
      RowCount(matchId, innings[..|innings| - 1]);
      OversRowsCount(matchId, last, last.overs);
      BallCountLast(innings);
    }
  }

  // ---------------------------------------------------------------- which rows

  /** Row `row` is the one the code builds for delivery `k` of over `o` of `overs`. */
  predicate FromOver(matchId: string, inn: Inning, overs: seq<Over>, o: int, k: int, row: DeliveryRow) {
    && 0 <= o < |overs|
    && 0 <= k < |overs[o].deliveries|
    && row == MakeRow(matchId, inn, overs[o].number, overs[o].deliveries[k])
  }

  /** Row `row` is the one the code builds for delivery `k` of over `o` of inning `i`. */
  predicate FromBall(matchId: string, innings: seq<Inning>, i: int, o: int, k: int, row: DeliveryRow) {
    && 0 <= i < |innings|
    && FromOver(matchId, innings[i], innings[i].overs, o, k, row)
  }

  lemma {:induction false} OversRowsMembers(matchId: string, inn: Inning, overs: seq<Over>, row: DeliveryRow)
    ensures row in OversRows(matchId, inn, overs) <==> exists o, k :: FromOver(matchId, inn, overs, o, k, row)
    decreases |overs|
  {
    if |overs| > 0 {
      var init := overs[..|overs| - 1];
      OversRowsMembers(matchId, inn, init, row);
      LastOverMembers(matchId, inn, overs, row);
    }
  }

  /** One step of `OversRowsMembers`: the rows of `overs` are those of all
      but its last over followed by the rows of the last over. */
  lemma LastOverMembers(matchId: string, inn: Inning, overs: seq<Over>, row: DeliveryRow)
    requires |overs| > 0
    requires var init := overs[..|overs| - 1];
      row in OversRows(matchId, inn, init) <==> exists o, k :: FromOver(matchId, inn, init, o, k, row)
    ensures row in OversRows(matchId, inn, overs) <==> exists o, k :: FromOver(matchId, inn, overs, o, k, row)
  {
    var init, last := overs[..|overs| - 1], overs[|overs| - 1];
    var tail := BallRows(matchId, inn, last.number, last.deliveries);
    assert OversRows(matchId, inn, overs) == OversRows(matchId, inn, init) + tail;
    if row in tail {
      var k :| 0 <= k < |tail| && tail[k] == row;
      BallRowsAt(matchId, inn, last.number, last.deliveries, k);
      assert FromOver(matchId, inn, overs, |init|, k, row);
    } else if row in OversRows(matchId, inn, init) {
      var o, k :| FromOver(matchId, inn, init, o, k, row);
      assert FromOver(matchId, inn, overs, o, k, row);
    }
    if exists o, k :: FromOver(matchId, inn, overs, o, k, row) {
      var o, k :| FromOver(matchId, inn, overs, o, k, row);
      if o == |init| {
        BallRowsAt(matchId, inn, last.number, last.deliveries, k);
        assert tail[k] == row;
      } else {
        assert FromOver(matchId, inn, init, o, k, row);
      }
    }
  }

  /** A row is produced exactly when some delivery of some over of some inning
      yields it: nothing is dropped and nothing is invented. */
  lemma {:induction false} RowsAreDeliveries(matchId: string, innings: seq<Inning>, row: DeliveryRow)
    ensures row in InningsRows(matchId, innings) <==> exists i, o, k :: FromBall(matchId, innings, i, o, k, row)
    decreases |innings|
  {
    if |innings| > 0 {
      var init, last := innings[..|innings| - 1], innings[|innings| - 1];
      RowsAreDeliveries(matchId, init, row);
      OversRowsMembers(matchId, last, last.overs, row);
      if row in InningsRows(matchId, innings) {
        if row in OversRows(matchId, last, last.overs) {
          var o, k :| FromOver(matchId, last, last.overs, o, k, row);
          assert FromBall(matchId, innings, |init|, o, k, row);
        } else {
          var i, o, k :| FromBall(matchId, init, i, o, k, row);
          assert FromBall(matchId, innings, i, o, k, row);
        }
      }
      if exists i, o, k :: FromBall(matchId, innings, i, o, k, row) {
        var i, o, k :| FromBall(matchId, innings, i, o, k, row);
        if i == |init| {
          assert FromOver(matchId, last, last.overs, o, k, row);
        } else {
          assert FromBall(matchId, init, i, o, k, row);
        }
      }
    }
  }

  /** Every row carries the match id it was given, and its delivery id names that
      match, the row's inning and over numbers and its ball. */
  lemma RowsCarryMatchId(matchId: string, innings: seq<Inning>)
    ensures forall row :: row in InningsRows(matchId, innings) ==>
              && row.matchId == matchId
              && DecodeDeliveryId(row.deliveryId) == Some((matchId, row.inning, row.over, row.ball))
  {
    forall row | row in InningsRows(matchId, innings)
      ensures row.matchId == matchId
      ensures DecodeDeliveryId(row.deliveryId) == Some((matchId, row.inning, row.over, row.ball))
    {
      RowsAreDeliveries(matchId, innings, row);
      var i, o, k :| FromBall(matchId, innings, i, o, k, row);
      MakeRowFields(matchId, innings[i], innings[i].overs[o].number, innings[i].overs[o].deliveries[k]);
    }
  }

  /** Row ids need not be unique: two deliveries of one over that both lack a `ball`
      key (every ball then renders as 0) get the same id although they are
      different rows. */
  lemma DeliveryIdsCanRepeat(matchId: string, inn: Inning, over: Option<int>, d1: Delivery, d2: Delivery)
    requires inn.overs == [Over(over, [d1, d2])]
    requires d1.ball.None? && d2.ball.None?
    ensures var rows := InningsRows(matchId, [inn]);
            |rows| == 2 && rows[0].deliveryId == rows[1].deliveryId
  {
    var balls := BallRows(matchId, inn, over, [d1, d2]);
    BallRowsAt(matchId, inn, over, [d1, d2], 0);
    BallRowsAt(matchId, inn, over, [d1, d2], 1);
    assert [inn][..0] == [] && inn.overs[..0] == [];
    assert OversRows(matchId, inn, inn.overs) == balls;
    assert InningsRows(matchId, [inn]) == balls;
  }

  // ---------------------------------------------------------------- the loops

  /** The innermost loop (lines 65-96): appends one row per delivery of `over`. */
  method AppendOver(rows: seq<DeliveryRow>, matchId: string, inn: Inning, over: Over) returns (out: seq<DeliveryRow>)
    ensures out == rows + BallRows(matchId, inn, over.number, over.deliveries)
  {
    var ds := over.deliveries;
    out := rows;
    var k := 0;
    while k < |ds|
      invariant 0 <= k <= |ds|
      invariant out == rows + BallRows(matchId, inn, over.number, ds[..k])
    {
      AppendOverStep(rows, out, matchId, inn, over.number, ds, k);
      out := out + [MakeRow(matchId, inn, over.number, ds[k])];
      k := k + 1;
    }
    assert ds[..k] == ds;
  }

  /** One turn of the innermost loop keeps `out` equal to the rows so far. */
  lemma AppendOverStep(rows: seq<DeliveryRow>, out: seq<DeliveryRow>, matchId: string, inn: Inning,
                       over: Option<int>, ds: seq<Delivery>, k: nat)
    requires k < |ds|
    requires out == rows + BallRows(matchId, inn, over, ds[..k])
    ensures out + [MakeRow(matchId, inn, over, ds[k])] == rows + BallRows(matchId, inn, over, ds[..k + 1])
  {
    BallRowsSnoc(matchId, inn, over, ds, k);
    var before, row := BallRows(matchId, inn, over, ds[..k]), MakeRow(matchId, inn, over, ds[k]);
    assert rows + before + [row] == rows + (before + [row]);
  }

  lemma BallRowsSnoc(matchId: string, inn: Inning, over: Option<int>, ds: seq<Delivery>, k: nat)
    requires k < |ds|
    ensures BallRows(matchId, inn, over, ds[..k + 1]) == BallRows(matchId, inn, over, ds[..k]) + [MakeRow(matchId, inn, over, ds[k])]
  {
    assert ds[..k + 1][..k] == ds[..k];
  }

  lemma OversRowsPrefix(rows: seq<DeliveryRow>, matchId: string, inn: Inning, overs: seq<Over>, j: nat)
    requires j < |overs|
    ensures rows + OversRows(matchId, inn, overs[..j + 1])
            == rows + OversRows(matchId, inn, overs[..j]) + BallRows(matchId, inn, overs[j].number, overs[j].deliveries)
  {
    var before, next := OversRows(matchId, inn, overs[..j]), BallRows(matchId, inn, overs[j].number, overs[j].deliveries);
    assert OversRows(matchId, inn, overs[..j + 1]) == before + next by {
      assert overs[..j + 1][..j] == overs[..j];
    }
    assert rows + (before + next) == rows + before + next;
  }

  /** The middle loop (lines 62-96): appends the rows of every over of `inn`. */
  method AppendInning(rows: seq<DeliveryRow>, matchId: string, inn: Inning) returns (out: seq<DeliveryRow>)
    ensures out == rows + OversRows(matchId, inn, inn.overs)
  {
    var overs := inn.overs;
    out := rows;
    var j := 0;
    while j < |overs|
      invariant 0 <= j <= |overs|
      invariant out == rows + OversRows(matchId, inn, overs[..j])
    {
      OversRowsPrefix(rows, matchId, inn, overs, j);
      out := AppendOver(out, matchId, inn, overs[j]);
      j := j + 1;
    }
    assert overs[..j] == overs;
  }

  /** Lines 53-98: the outer loop over the innings, one row per delivery. */
  method ParseDeliveries(doc: Match, matchId: string) returns (rows: seq<DeliveryRow>)
    ensures rows == InningsRows(matchId, doc.innings)
    ensures |rows| == BallCount(doc.innings)
    ensures forall row :: row in rows ==> row.matchId == matchId
  {
    var innings := doc.innings;
    rows := [];
    var i := 0;
    while i < |innings|
      invariant 0 <= i <= |innings|
      invariant rows == InningsRows(matchId, innings[..i])
    {
      assert innings[..i + 1][..i] == innings[..i];
      rows := AppendInning(rows, matchId, innings[i]);
      i := i + 1;
    }
    assert innings[..i] == innings;
    RowCount(matchId, innings);
    RowsCarryMatchId(matchId, innings);
  }
}

=== FILE: document.dfy ===
/** The parsed match document and the two row shapes the pipeline produces.

    A JSON key the code reads with `.get(key, [])` or `.get(key, {})` is a plain
    sequence or record here: an absent key and an empty list or object behave
    identically in the code, so one representation covers both. A key read with a
    non-empty default, or whose emptiness matters, is an `Option`. */
module Document {
  import opened Wrappers

  /** `info.event` (absent object == no name). */
  datatype Event = Event(name: Option<string>)

  /** `info.toss` (absent object == both fields absent). */
  datatype Toss = Toss(winner: Option<string>, decision: Option<string>)

  /** `info.outcome.by` (the winning margin). */
  datatype Margin = Margin(runs: Option<int>, wickets: Option<int>)

  /** `info.outcome`. */
  datatype Outcome = Outcome(winner: Option<string>, margin: Margin)

  /** The `info` block. `dates` stays optional: an absent key takes the default date,
      while a present empty list makes the code index past its end. */
  datatype Info = Info(
    version: Option<string>,
    dates: Option<seq<string>>,
    event: Event,
    teams: seq<string>,
    venue: Option<string>,
    gender: Option<string>,
    toss: Toss,
    outcome: Outcome,
    playerOfMatch: seq<string>)

  /** One dismissal of `delivery.wickets`. */
  datatype Wicket = Wicket(kind: Option<string>, playerOut: Option<string>)

  /** `delivery.runs`. */
  datatype Runs = Runs(batter: Option<int>, extras: Option<int>, total: Option<int>)

  /** One ball. `extras` keeps the key order of the JSON object. */
  datatype Delivery = Delivery(
    ball: Option<int>,
    batter: Option<string>,
    bowler: Option<string>,
    bowlerTeam: Option<string>,
    runs: Runs,
    extras: seq<(string, int)>,
    wickets: seq<Wicket>)

  /** One element of `inning.overs`; `number` is its `over` key. */
  datatype Over = Over(number: Option<int>, deliveries: seq<Delivery>)

  /** One element of `innings`; `number` is its `innings_number` key. */
  datatype Inning = Inning(team: Option<string>, number: Option<int>, overs: seq<Over>)

  /** A whole match file after JSON decoding. */
  datatype Match = Match(info: Info, innings: seq<Inning>)

  /** One row of a `{format}_matches` table. */
  datatype MatchRow = MatchRow(
    matchId: string,
    format: string,
    season: string,
    date: string,
    venue: string,
    gender: string,
    teams: string,
    tossWinner: Option<string>,
    tossDecision: Option<string>,
    winner: string,
    byRuns: int,
    byWickets: int,
    playerOfMatch: string)

  /** One row of a `{format}_deliveries` table. `isWicket` is the 0/1 integer the
      code stores. */
  datatype DeliveryRow = DeliveryRow(
    deliveryId: string,
    matchId: string,
    inning: Option<int>,
    battingTeam: Option<string>,
    bowlingTeam: Option<string>,
    over: Option<int>,
    ball: int,
    batter: Option<string>,
    bowler: Option<string>,
    runsBatter: int,
    runsExtras: int,
    runsTotal: int,
    extrasType: Option<string>,
    isWicket: int,
    wicketKind: Option<string>,
    playerOut: Option<string>)
}

=== FILE: match_id.dfy ===
/** Match-id synthesis (`transform_load.py`, `parse_match_metadata`, lines 23-31):
    version, first date and event name joined by `_`, a `_vs_` teams suffix when
    the id has fewer than three underscores, then the character clean-up. */
module MatchId {
  import opened Wrappers
  import opened Text

  const DefaultVersion := "v0"
  const DefaultDate := "1970-01-01"
  const DefaultEvent := "UnknownEvent"
  const TeamsSeparator := "_vs_"

  /** Why a document yields no match id: `info.dates` is present but empty, so
      `dates[0]` raises `IndexError`. */
  datatype MetadataError = NoFirstDate

  // ---------------------------------------------------------------- sanitising

  /** A character the clean-up rewrites (space, slash, hyphen) or deletes (period). */
  predicate Unsafe(c: char) {
    c == ' ' || c == '/' || c == '.' || c == '-'
  }

  /** No character of `s` is touched by the clean-up. */
  predicate Clean(s: string) {
    forall i :: 0 <= i < |s| ==> !Unsafe(s[i])
  }

  /** The chained `.replace` calls of line 31: space, slash and hyphen become `_`,
      a period is deleted. */
  function Sanitise(s: string): (r: string)
    ensures Clean(r)
    ensures Clean(s) ==> r == s
  {
    Replace(Replace(Replace(Replace(s, ' ', "_"), '/', "_"), '.', ""), '-', "_")
  }

  /** What the clean-up makes of one character. */
  function SanitiseChar(c: char): string {
    if c == '.' then "" else if Unsafe(c) then "_" else [c]
  }

  /** The clean-up stated one character at a time, independently of the order of
      the `.replace` calls. */
  function SanitiseEach(s: string): string {
    if |s| == 0 then "" else SanitiseChar(s[0]) + SanitiseEach(s[1..])
  }

  lemma SanitiseConcat(a: string, b: string)
    ensures Sanitise(a + b) == Sanitise(a) + Sanitise(b)
  {
    var r1a, r1b := Replace(a, ' ', "_"), Replace(b, ' ', "_");
    ReplaceConcat(a, b, ' ', "_");
    var r2a, r2b := Replace(r1a, '/', "_"), Replace(r1b, '/', "_");
    ReplaceConcat(r1a, r1b, '/', "_");
    var r3a, r3b := Replace(r2a, '.', ""), Replace(r2b, '.', "");
    ReplaceConcat(r2a, r2b, '.', "");
    ReplaceConcat(r3a, r3b, '-', "_");
  }

  /** The four sequential replacements act on each character independently:
      no replacement produces a character a later one would rewrite. */
  lemma {:induction false} SanitiseIsPerCharacter(s: string)
    ensures Sanitise(s) == SanitiseEach(s)
  {
    if |s| > 0 {
      assert s == [s[0]] + s[1..];
      SanitiseConcat([s[0]], s[1..]);
      SanitiseIsPerCharacter(s[1..]);
      SanitiseOneChar(s[0]);
    }
  }

  lemma SanitiseOneChar(c: char)
    ensures Sanitise([c]) == SanitiseChar(c)
  {
    var s1 := Replace([c], ' ', "_");
    assert s1 == if c == ' ' then "_" else [c];
    var s2 := Replace(s1, '/', "_");
    assert s2 == if c == ' ' || c == '/' then "_" else [c];
    var s3 := Replace(s2, '.', "");
    assert s3 == if c == ' ' || c == '/' then "_" else if c == '.' then "" else [c];
  }

  /** Periods are deleted, every other character is kept or replaced one for one. */
  lemma {:induction false} SanitiseLength(s: string)
    ensures |Sanitise(s)| == |s| - Count(s, '.')
  {
    SanitiseIsPerCharacter(s);
    SanitiseEachLength(s);
  }

  lemma {:induction false} SanitiseEachLength(s: string)
    ensures |SanitiseEach(s)| == |s| - Count(s, '.')
  {
    if |s| > 0 {
      SanitiseEachLength(s[1..]);
    }
  }

  lemma SanitiseIdempotent(s: string)
    ensures Sanitise(Sanitise(s)) == Sanitise(s)
  {
  }

  // ---------------------------------------------------------------- the id

  /** `info.get('dates', ['1970-01-01'])[0]`. */
  function FirstDate(dates: Option<seq<string>>): (r: Result<string, MetadataError>)
    ensures r.Failure? <==> dates == Some([])
    ensures dates.None? ==> r == Success(DefaultDate)
    ensures dates.Some? && |dates.value| > 0 ==> r == Success(dates.value[0])
  {
    match dates
    case None => Success(DefaultDate)
    case Some(ds) => if |ds| == 0 then Failure(NoFirstDate) else Success(ds[0])
  }

  /** The unsanitised id of line 24. It has the two joining underscores plus those
      inside version, date and event name. */
  function BaseId(version: Option<string>, firstDate: string, eventName: Option<string>): (r: string)
    ensures Count(r, '_') ==
            Count(version.GetOr(DefaultVersion), '_') + Count(firstDate, '_') + Count(eventName.GetOr(DefaultEvent), '_') + 2
  {
    var v, e, u := version.GetOr(DefaultVersion), eventName.GetOr(DefaultEvent), "_";
    CountConcat(v, u, '_');
    CountConcat(v + u, firstDate, '_');
    CountConcat(v + u + firstDate, u, '_');
    CountConcat(v + u + firstDate + u, e, '_');
    v + u + firstDate + u + e
  }

  /** The id of line 24 is version, first date and event name, in that order:
      splitting it at `_` gives the pieces of each part in turn, and when no part
      holds an `_` of its own, exactly the three parts. */
  lemma BaseIdParts(version: Option<string>, firstDate: string, eventName: Option<string>)
    ensures var v, e := version.GetOr(DefaultVersion), eventName.GetOr(DefaultEvent);
      && Split(BaseId(version, firstDate, eventName), '_') == Split(v, '_') + Split(firstDate, '_') + Split(e, '_')
      && ('_' !in v && '_' !in firstDate && '_' !in e ==> Split(BaseId(version, firstDate, eventName), '_') == [v, firstDate, e])
  {
    var v, e := version.GetOr(DefaultVersion), eventName.GetOr(DefaultEvent);
    assert BaseId(version, firstDate, eventName) == v + ['_'] + firstDate + ['_'] + e;
    SplitThree(v, firstDate, e, '_');
    if '_' !in v && '_' !in firstDate && '_' !in e {
      SplitThreePlain(v, firstDate, e, '_');
    }
  }

  /** Lines 27-28: `_vs_`-joined teams appended when the id has fewer than three
      underscores and there are teams; otherwise the id is kept as it is. */
  function WithTeams(id: string, teams: seq<string>): (r: string)
    ensures StartsWith(r, id)
    ensures r != id <==> Count(id, '_') < 3 && |teams| > 0
    ensures r != id ==> r[|id|..] == "_" + Join(teams, TeamsSeparator)
  {
    if Count(id, '_') < 3 && |teams| > 0 then
      var r := id + "_" + Join(teams, TeamsSeparator);
      assert |r| > |id| && r[..|id|] == id;
      r
    else id
  }

  /** The match id of lines 24-31. It depends on nothing but these four inputs. */
  function SynthesiseMatchId(version: Option<string>, dates: Option<seq<string>>,
                             eventName: Option<string>, teams: seq<string>): (r: Result<string, MetadataError>)
    ensures r.Failure? <==> dates == Some([])
    ensures r.Success? ==> Clean(r.value)
  {
    match FirstDate(dates)
    case Failure(e) => Failure(e)
    case Success(d) => Success(Sanitise(WithTeams(BaseId(version, d, eventName), teams)))
  }

  /** The teams suffix is added exactly when there are teams and none of version,
      first date and event name (after defaults) contains an underscore of its own. */
  lemma TeamsSuffixCondition(version: string, date: string, event: string, teams: seq<string>)
    ensures var base := BaseId(Some(version), date, Some(event));
            WithTeams(base, teams) ==
              if '_' !in version && '_' !in date && '_' !in event && |teams| > 0
              then base + "_" + Join(teams, TeamsSeparator)
              else base
  {
    var plain := '_' !in version && '_' !in date && '_' !in event;
    assert plain <==> Count(version, '_') + Count(date, '_') + Count(event, '_') == 0;
  }

  /** A hyphen between two pieces becomes an underscore. */
  lemma SanitiseAtHyphen(a: string, b: string)
    ensures Sanitise(a + "-" + b) == Sanitise(a) + "_" + Sanitise(b)
  {
    SanitiseConcat(a + "-", b);
    SanitiseConcat(a, "-");
    SanitiseOneChar('-');
  }

  /** A period between two pieces disappears. */
  lemma SanitiseAtPeriod(a: string, b: string)
    ensures Sanitise(a + "." + b) == Sanitise(a) + Sanitise(b)
  {
    SanitiseConcat(a + ".", b);
    SanitiseConcat(a, ".");
    SanitiseOneChar('.');
  }

  /** An absent version, date list or event name behaves exactly like its `.get`
      default being present, whatever the other keys hold. */
  lemma DefaultsFillIn(version: Option<string>, dates: Option<seq<string>>,
                       eventName: Option<string>, teams: seq<string>)
    ensures SynthesiseMatchId(None, dates, eventName, teams)
            == SynthesiseMatchId(Some(DefaultVersion), dates, eventName, teams)
    ensures SynthesiseMatchId(version, None, eventName, teams)
            == SynthesiseMatchId(version, Some([DefaultDate]), eventName, teams)
    ensures SynthesiseMatchId(version, dates, None, teams)
            == SynthesiseMatchId(version, dates, Some(DefaultEvent), teams)
  {
    VersionDefault(dates, eventName, teams);
    DatesDefault(version, eventName, teams);
    EventDefault(version, dates, teams);
  }

  /** An absent `match_data_version` reads as `v0`. */
  lemma VersionDefault(dates: Option<seq<string>>, eventName: Option<string>, teams: seq<string>)
    ensures SynthesiseMatchId(None, dates, eventName, teams)
            == SynthesiseMatchId(Some(DefaultVersion), dates, eventName, teams)
  {
  }

  /** An absent `dates` reads as `['1970-01-01']`. */
  lemma DatesDefault(version: Option<string>, eventName: Option<string>, teams: seq<string>)
    ensures SynthesiseMatchId(version, None, eventName, teams)
            == SynthesiseMatchId(version, Some([DefaultDate]), eventName, teams)
  {
    assert FirstDate(None) == FirstDate(Some([DefaultDate]));
  }

  /** An absent `event.name` reads as `UnknownEvent`. */
  lemma EventDefault(version: Option<string>, dates: Option<seq<string>>, teams: seq<string>)
    ensures SynthesiseMatchId(version, dates, None, teams)
            == SynthesiseMatchId(version, dates, Some(DefaultEvent), teams)
  {
  }
}

=== FILE: metadata.dfy ===
/** Match metadata extraction (`transform_load.py`, `parse_match_metadata`,
    lines 18-50): one normalised row per document, plus the synthesised id that the
    delivery flattening needs. */
module Metadata {
  import opened Wrappers
  import opened Text
  import opened Document
  import opened MatchId

  const DefaultSeason := "1970"
  const DefaultVenue := "Unknown Venue"
  const DefaultGender := "male"
  const DefaultWinner := "No Result"
  const ListSeparator := ", "

  /** What `parse_match_metadata` returns: the (deduplicated) one-row frame and the id. */
  datatype Extracted = Extracted(rows: seq<MatchRow>, matchId: string)

  /** `s[:4]`: the first four characters, or all of them when there are fewer. */
  function Prefix4(s: string): (r: string)
    ensures StartsWith(s, r)
    ensures |r| == if |s| < 4 then |s| else 4
  {
    if |s| < 4 then s else s[..4]
  }

  /** Line 37, `info.get('dates', ['1970'])[0][:4]`: the year of the first date. */
  function Season(dates: Option<seq<string>>): (r: string)
    requires dates != Some([])
    ensures dates.None? ==> r == DefaultSeason
    ensures dates.Some? ==> StartsWith(dates.value[0], r) && |r| == if |dates.value[0]| < 4 then |dates.value[0]| else 4
  {
    match dates
    case None => DefaultSeason
    case Some(ds) => Prefix4(ds[0])
  }

  /** Lines 34-48: the row's fields, each a key of `info` or its `.get` default. */
  function MatchRowOf(info: Info, format: string, matchId: string, date: string): (r: MatchRow)
    requires info.dates != Some([])
    requires FirstDate(info.dates) == Success(date)
    ensures r.matchId == matchId && r.format == format && r.date == date
    ensures StartsWith(r.date, r.season) && |r.season| == if |r.date| < 4 then |r.date| else 4
    ensures info.venue.None? ==> r.venue == DefaultVenue
    ensures info.venue.Some? ==> r.venue == info.venue.value
    ensures info.gender.None? ==> r.gender == DefaultGender
    ensures info.gender.Some? ==> r.gender == info.gender.value
    ensures r.tossWinner == info.toss.winner && r.tossDecision == info.toss.decision
    ensures info.outcome.winner.None? ==> r.winner == DefaultWinner
    ensures info.outcome.winner.Some? ==> r.winner == info.outcome.winner.value
    ensures info.outcome.margin.runs.None? ==> r.byRuns == 0
    ensures info.outcome.margin.runs.Some? ==> r.byRuns == info.outcome.margin.runs.value
    ensures info.outcome.margin.wickets.None? ==> r.byWickets == 0
    ensures info.outcome.margin.wickets.Some? ==> r.byWickets == info.outcome.margin.wickets.value
    ensures |info.teams| == 0 ==> r.teams == ""
    ensures |info.teams| == 1 ==> r.teams == info.teams[0]
  {
    assert info.dates.None? ==> Season(info.dates) == DefaultSeason == DefaultDate[..4];
    MatchRow(
      matchId := matchId,
      format := format,
      season := Season(info.dates),
      date := date,
      venue := info.venue.GetOr(DefaultVenue),
      gender := info.gender.GetOr(DefaultGender),
      teams := Join(info.teams, ListSeparator),
      tossWinner := info.toss.winner,
      tossDecision := info.toss.decision,
      winner := info.outcome.winner.GetOr(DefaultWinner),
      byRuns := info.outcome.margin.runs.GetOr(0),
      byWickets := info.outcome.margin.wickets.GetOr(0),
      playerOfMatch := Join(info.playerOfMatch, ListSeparator))
  }

  /** The ids occurring in a frame. */
  function Ids(rows: seq<MatchRow>): set<string> {
    set x | x in rows :: x.matchId
  }

  /** No two rows of the frame share an id. */
  predicate DistinctIds(rows: seq<MatchRow>) {
    forall i, j :: 0 <= i < j < |rows| ==> rows[i].matchId != rows[j].matchId
  }

  lemma IdsSnoc(rows: seq<MatchRow>, x: MatchRow)
    ensures Ids(rows + [x]) == Ids(rows) + {x.matchId}
  {
    forall id | id in Ids(rows + [x])
      ensures id in Ids(rows) + {x.matchId}
    {
      var y :| y in rows + [x] && y.matchId == id;
      if y != x {
        assert y in rows;
      }
    }
    forall id | id in Ids(rows) + {x.matchId}
      ensures id in Ids(rows + [x])
    {
      if id != x.matchId {
        var y :| y in rows && y.matchId == id;
        assert y in rows + [x];
      } else {
        assert x in rows + [x];
      }
    }
  }

  lemma DistinctSnoc(rows: seq<MatchRow>, x: MatchRow)
    requires DistinctIds(rows) && x.matchId !in Ids(rows)
    ensures DistinctIds(rows + [x])
  {
    var r := rows + [x];
    forall i, j | 0 <= i < j < |r|
      ensures r[i].matchId != r[j].matchId
    {
      if j == |rows| {
        assert r[i] in rows;
      }
    }
  }

  /** One step of the deduplication: `kept` deduplicates `init`, and `last` is kept
      exactly when its id is new. */
  lemma DropStep(init: seq<MatchRow>, kept: seq<MatchRow>, last: MatchRow)
    requires DistinctIds(kept)
    requires forall x :: x in kept ==> x in init
    requires Ids(kept) == Ids(init)
    ensures var r := if last.matchId in Ids(kept) then kept else kept + [last];
            && DistinctIds(r)
            && (forall x :: x in r ==> x in init + [last])
            && Ids(r) == Ids(init + [last])
  {
    IdsSnoc(init, last);
    IdsSnoc(kept, last);
    if last.matchId !in Ids(kept) {
      DistinctSnoc(kept, last);
    }
  }

  /** Row `i` is the first of the frame with its id. */
  predicate FirstOfId(rows: seq<MatchRow>, i: nat)
    requires i < |rows|
  {
    forall j :: 0 <= j < i ==> rows[j].matchId != rows[i].matchId
  }

  /** The rows that are the first of their id, in frame order. */
  function FirstRows(rows: seq<MatchRow>): seq<MatchRow>
  {
    if |rows| == 0 then []
    else FirstRows(rows[..|rows| - 1]) + if FirstOfId(rows, |rows| - 1) then [rows[|rows| - 1]] else []
  }

  lemma IdsAt(rows: seq<MatchRow>, id: string)
    ensures id in Ids(rows) <==> exists j :: 0 <= j < |rows| && rows[j].matchId == id
  {
    if id in Ids(rows) {
      var x :| x in rows && x.matchId == id;
      var j :| 0 <= j < |rows| && rows[j] == x;
    }
    if exists j :: 0 <= j < |rows| && rows[j].matchId == id {
      var j :| 0 <= j < |rows| && rows[j].matchId == id;
      assert rows[j] in rows;
    }
  }

  /** `frame.drop_duplicates(subset=['match_id'])`: the first row of each id, in order. */
  function DropDuplicateIds(rows: seq<MatchRow>): (r: seq<MatchRow>)
    ensures r == FirstRows(rows)
    ensures DistinctIds(r)
    ensures forall x :: x in r ==> x in rows
    ensures Ids(r) == Ids(rows)
    ensures |rows| <= 1 ==> r == rows
  {
    if |rows| == 0 then []
    else
      var init, last := rows[..|rows| - 1], rows[|rows| - 1];
      var kept := DropDuplicateIds(init);
      assert rows == init + [last];
      DropStep(init, kept, last);
      assert |rows| == 1 ==> kept == [] && last.matchId !in Ids(kept);
      assert last.matchId in Ids(kept) <==> !FirstOfId(rows, |rows| - 1) by {
        IdsAt(init, last.matchId);
        assert forall j :: 0 <= j < |init| ==> init[j] == rows[j];
      }
      if last.matchId in Ids(kept) then kept else kept + [last]
  }

  /** Lines 18-50. Fails exactly when `info.dates` is present but empty (the
      `IndexError` the caller catches); otherwise one row whose id is the returned id. */
  function ParseMatchMetadata(doc: Match, format: string): (r: Result<Extracted, MetadataError>)
    ensures r.Failure? <==> doc.info.dates == Some([])
    ensures r.Success? ==>
              && |r.value.rows| == 1
              && r.value.rows[0].matchId == r.value.matchId
              && r.value.rows[0].format == format
              && Clean(r.value.matchId)
              && SynthesiseMatchId(doc.info.version, doc.info.dates, doc.info.event.name, doc.info.teams)
                 == Success(r.value.matchId)
              && FirstDate(doc.info.dates) == Success(r.value.rows[0].date)
              && r.value.rows == [MatchRowOf(doc.info, format, r.value.matchId, r.value.rows[0].date)]
  {
    var info := doc.info;
    match SynthesiseMatchId(info.version, info.dates, info.event.name, info.teams)
    case Failure(e) => Failure(e)
    case Success(id) =>
      var date := FirstDate(info.dates).value;
      Success(Extracted(DropDuplicateIds([MatchRowOf(info, format, id, date)]), id))
  }
}

=== FILE: pipeline.dfy ===
/** The transformation half of `process_and_load_data` (`transform_load.py`, lines
    113-175) as a pure fold: each format folder's files are decoded, parsed and
    collected, and every format with at least one parsed file becomes a pair of
    tables. Directory listing, file reading and the database writes are not modelled;
    the folder contents arrive as values. */
module Pipeline {
  import opened Wrappers
  import opened Text
  import opened Document
  import opened MatchId
  import opened Metadata
  import opened Deliveries

  /** A file's content after `json.load`: a decoded match, or text that is not JSON. */
  datatype Source = Unreadable | Parsed(doc: Match)

  /** One directory entry inside a format folder. */
  datatype FileEntry = FileEntry(name: string, content: Source)

  /** One entry of the raw-data directory: a plain file (skipped, line 116) or a
      format folder with its entries. */
  datatype Entry = Plain(name: string) | Folder(name: string, files: seq<FileEntry>)

  /** The two frame lists collected for one format (lines 120-121, 139-140). */
  datatype Batch = Batch(matchFrames: seq<seq<MatchRow>>, deliveryFrames: seq<seq<DeliveryRow>>)

  /** The two tables loaded for one format: `{format}_matches` and
      `{format}_deliveries`. */
  datatype Tables = Tables(format: string, matches: seq<MatchRow>, deliveries: seq<DeliveryRow>)

  const JsonSuffix := ".json"

  // ---------------------------------------------------------------- one file

  /** The file decodes, and its `dates` is not the empty list that makes line 24 raise. */
  predicate Parses(src: Source) {
    src.Parsed? && src.doc.info.dates != Some([])
  }

  /** Lines 130-145 for one file: both frames, or nothing when decoding or parsing
      raises. In this typed model the only raise left in the parsers is the empty
      `dates` list. */
  function Ingest(src: Source, format: string): (r: Option<(seq<MatchRow>, seq<DeliveryRow>)>)
    ensures r.None? <==> src.Unreadable? || src.doc.info.dates == Some([])
    ensures r.Some? ==>
              && |r.value.0| == 1
              && r.value.0[0].format == format
              && |r.value.1| == BallCount(src.doc.innings)
              && (forall row :: row in r.value.1 ==> row.matchId == r.value.0[0].matchId)
              && SynthesiseMatchId(src.doc.info.version, src.doc.info.dates, src.doc.info.event.name, src.doc.info.teams)
                 == Success(r.value.0[0].matchId)
              && r.value.1 == InningsRows(r.value.0[0].matchId, src.doc.innings)
  {
    match src
    case Unreadable => None
    case Parsed(doc) =>
      match ParseMatchMetadata(doc, format)
      case Failure(_) => None
      case Success(ex) =>
        RowsCarryMatchId(ex.matchId, doc.innings);
        RowCount(ex.matchId, doc.innings);
        Some((ex.rows, InningsRows(ex.matchId, doc.innings)))
  }

  /** A parsed file's delivery frame holds exactly the rows of its deliveries: a
      row is in it when, and only when, some inning, over and position yields it. */
  lemma IngestDeliveries(src: Source, format: string)
    requires Parses(src)
    ensures var r := Ingest(src, format).value;
      forall row :: row in r.1 <==> exists i, o, k :: FromBall(r.0[0].matchId, src.doc.innings, i, o, k, row)
  {
    var r := Ingest(src, format).value;
    forall row
      ensures row in r.1 <==> exists i, o, k :: FromBall(r.0[0].matchId, src.doc.innings, i, o, k, row)
    {
      RowsAreDeliveries(r.0[0].matchId, src.doc.innings, row);
    }
  }

  /** The file is one the loop picks up and parses without raising. */
  predicate Contributes(f: FileEntry) {
    EndsWith(f.name, JsonSuffix) && Parses(f.content)
  }

  // ---------------------------------------------------------------- one format

  /** Every collected match frame is one row, and the delivery frame at the same
      position belongs to that match. */
  predicate Paired(b: Batch) {
    && |b.matchFrames| == |b.deliveryFrames|
    && forall k :: 0 <= k < |b.matchFrames| ==>
         && |b.matchFrames[k]| == 1
         && forall row :: row in b.deliveryFrames[k] ==> row.matchId == b.matchFrames[k][0].matchId
  }

  /** Lines 127-145 for one more file: its frames are appended when it is a `.json`
      file that parses. The frames already collected are kept, and the file adds one
      match frame and one delivery frame, or nothing. */
  function Absorb(b: Batch, f: FileEntry, format: string): (r: Batch)
    ensures |r.matchFrames| == |b.matchFrames| + (if Contributes(f) then 1 else 0)
    ensures |r.deliveryFrames| == |b.deliveryFrames| + (if Contributes(f) then 1 else 0)
    ensures r.matchFrames[..|b.matchFrames|] == b.matchFrames
    ensures r.deliveryFrames[..|b.deliveryFrames|] == b.deliveryFrames
  {
    AddFrames(b, if EndsWith(f.name, JsonSuffix) then Ingest(f.content, format) else None)
  }

  /** Appends one file's frames, if it has any. */
  function AddFrames(b: Batch, frames: Option<(seq<MatchRow>, seq<DeliveryRow>)>): Batch
  {
    match frames
    case None => b
    case Some((m, d)) => Batch(b.matchFrames + [m], b.deliveryFrames + [d])
  }

  /** Lines 125-145: the frames of the `.json` files of one folder, in listing order. */
  function Collect(format: string, files: seq<FileEntry>): (b: Batch)
    ensures Collected(b, format)
    decreases |files|
  {
    if |files| == 0 then Batch([], [])
    else
      var b := Collect(format, files[..|files| - 1]);
      AbsorbKeepsCollected(b, files[|files| - 1], format);
      Absorb(b, files[|files| - 1], format)
  }

  /** Frames are paired and every match row is of this format. */
  predicate Collected(b: Batch, format: string) {
    && Paired(b)
    && forall k :: 0 <= k < |b.matchFrames| ==> b.matchFrames[k][0].format == format
  }

  lemma AbsorbKeepsCollected(b: Batch, f: FileEntry, format: string)
    requires Collected(b, format)
    ensures Collected(Absorb(b, f, format), format)
  {
    if Contributes(f) {
      var v := Ingest(f.content, format).value;
      assert Absorb(b, f, format) == AddFrames(b, Some(v));
      AddFramesKeepsCollected(b, v.0, v.1, format);
    } else {
      assert Absorb(b, f, format) == b;
    }
  }

  /** Appending a one-row match frame of this format with a delivery frame of its
      match keeps a batch collected. */
  lemma AddFramesKeepsCollected(b: Batch, m: seq<MatchRow>, d: seq<DeliveryRow>, format: string)
    requires Collected(b, format)
    requires |m| == 1 && m[0].format == format
    requires forall row :: row in d ==> row.matchId == m[0].matchId
    ensures Collected(AddFrames(b, Some((m, d))), format)
  {
    var b' := AddFrames(b, Some((m, d)));
    forall k | 0 <= k < |b'.matchFrames|
      ensures |b'.matchFrames[k]| == 1 && b'.matchFrames[k][0].format == format
      ensures forall row :: row in b'.deliveryFrames[k] ==> row.matchId == b'.matchFrames[k][0].matchId
    {
      if k < |b.matchFrames| {
        assert b'.matchFrames[k] == b.matchFrames[k] && b'.deliveryFrames[k] == b.deliveryFrames[k];
      }
    }
  }

  /** The number of files that contribute, counted from the front. */
  function Successes(files: seq<FileEntry>): nat
  {
    if |files| == 0 then 0
    else (if Contributes(files[0]) then 1 else 0) + Successes(files[1..])
  }

  lemma {:induction false} SuccessesLast(files: seq<FileEntry>)
    requires |files| > 0
    ensures Successes(files)
            == Successes(files[..|files| - 1]) + if Contributes(files[|files| - 1]) then 1 else 0
    decreases |files|
  {
    if |files| > 1 {
      var rest := files[1..];
      assert files[..|files| - 1][1..] == rest[..|rest| - 1];
      SuccessesLast(rest);
    }
  }

  /** A format collects exactly one match frame and one delivery frame per file that
      parses: a file contributes both or neither. */
  lemma {:induction false} CollectCounts(format: string, files: seq<FileEntry>)
    ensures |Collect(format, files).matchFrames| == Successes(files)
    ensures |Collect(format, files).deliveryFrames| == Successes(files)
    decreases |files|
  {
    if |files| > 0 {
      CollectCounts(format, files[..|files| - 1]);
      SuccessesLast(files);
    }
  }

  /** The frames of two runs of files side by side. */
  function Combine(a: Batch, b: Batch): Batch {
    Batch(a.matchFrames + b.matchFrames, a.deliveryFrames + b.deliveryFrames)
  }

  lemma AbsorbCombine(a: Batch, b: Batch, f: FileEntry, format: string)
    ensures Absorb(Combine(a, b), f, format) == Combine(a, Absorb(b, f, format))
  {
    AddFramesCombine(a, b, if EndsWith(f.name, JsonSuffix) then Ingest(f.content, format) else None);
  }

  lemma AddFramesCombine(a: Batch, b: Batch, frames: Option<(seq<MatchRow>, seq<DeliveryRow>)>)
    ensures AddFrames(Combine(a, b), frames) == Combine(a, AddFrames(b, frames))
  {
    if frames.Some? {
      var (m, d) := frames.value;
      assert a.matchFrames + b.matchFrames + [m] == a.matchFrames + (b.matchFrames + [m]);
      assert a.deliveryFrames + b.deliveryFrames + [d] == a.deliveryFrames + (b.deliveryFrames + [d]);
    }
  }

  /** Collecting is a fold: the frames of `xs + ys` are those of `xs` followed by
      those of `ys`, so no file affects what another contributes. */
  lemma {:induction false} CollectAppend(format: string, xs: seq<FileEntry>, ys: seq<FileEntry>)
    ensures Collect(format, xs + ys) == Combine(Collect(format, xs), Collect(format, ys))
    decreases |ys|
  {
    if |ys| == 0 {
      assert xs + ys == xs;
    } else {
      var init, last := ys[..|ys| - 1], ys[|ys| - 1];
      CollectSnoc(format, xs + init, last);
      assert xs + init + [last] == xs + ys by {
        assert ys == init + [last];
      }
      CollectAppend(format, xs, init);
      AbsorbCombine(Collect(format, xs), Collect(format, init), last, format);
      CollectSnoc(format, init, last);
      assert init + [last] == ys;
    }
  }

  lemma CollectSnoc(format: string, files: seq<FileEntry>, f: FileEntry)
    ensures Collect(format, files + [f]) == Absorb(Collect(format, files), f, format)
  {
    var all := files + [f];
    assert all[..|all| - 1] == files;
  }

  // ---------------------------------------------------------------- the tables

  /** `pd.concat(frames)`: the rows of every frame, in order. */
  function Flatten<T>(frames: seq<seq<T>>): (r: seq<T>)
    decreases |frames|
  {
    if |frames| == 0 then [] else Flatten(frames[..|frames| - 1]) + frames[|frames| - 1]
  }

  /** The number of rows over all frames, counted last frame first. */
  function FrameSizes<T>(frames: seq<seq<T>>): nat
    decreases |frames|
  {
    if |frames| == 0 then 0 else FrameSizes(frames[..|frames| - 1]) + |frames[|frames| - 1]|
  }

  /** Concatenating keeps every row: none is dropped or merged with an equal one. */
  lemma {:induction false} FlattenLength<T>(frames: seq<seq<T>>)
    ensures |Flatten(frames)| == FrameSizes(frames)
    decreases |frames|
  {
    if |frames| > 0 {
      FlattenLength(frames[..|frames| - 1]);
    }
  }

  /** Concatenating two runs of frames gives the rows of the first run followed by
      those of the second, and a single frame gives its own rows. */
  lemma {:induction false} FlattenAppend<T>(a: seq<seq<T>>, b: seq<seq<T>>)
    ensures Flatten(a + b) == Flatten(a) + Flatten(b)
    ensures Flatten([b]) == b
    decreases |b|
  {
    assert Flatten([b]) == Flatten([b][..0]) + b;
    if |b| == 0 {
      assert a + b == a;
    } else {
      var init := b[..|b| - 1];
      assert (a + b)[..|a + b| - 1] == a + init;
      FlattenAppend(a, init);
    }
  }

  lemma {:induction false} FlattenMembers<T>(frames: seq<seq<T>>, x: T)
    ensures x in Flatten(frames) <==> exists k :: 0 <= k < |frames| && x in frames[k]
    decreases |frames|
  {
    if |frames| > 0 {
      var init := frames[..|frames| - 1];
      FlattenMembers(init, x);
      if exists k :: 0 <= k < |frames| && x in frames[k] {
        var k :| 0 <= k < |frames| && x in frames[k];
        if k < |init| {
          assert x in init[k];
        }
      }
      if exists k :: 0 <= k < |init| && x in init[k] {
        var k :| 0 <= k < |init| && x in init[k];
        assert x in frames[k];
      }
    }
  }

  lemma {:induction false} FlattenSingletons<T>(frames: seq<seq<T>>)
    requires forall k :: 0 <= k < |frames| ==> |frames[k]| == 1
    ensures |Flatten(frames)| == |frames|
    ensures forall k :: 0 <= k < |frames| ==> Flatten(frames)[k] == frames[k][0]
    decreases |frames|
  {
    if |frames| > 0 {
      FlattenSingletons(frames[..|frames| - 1]);
    }
  }

  /** Lines 159-175 for one format: nothing when no file parsed (line 162), else the
      concatenated match and delivery frames. */
  function Materialise(format: string, b: Batch): (r: Option<Tables>)
    ensures r.None? <==> |b.matchFrames| == 0
    ensures r.Some? ==> r.value.format == format
    ensures r.Some? ==> forall m :: m in r.value.matches <==> exists k :: 0 <= k < |b.matchFrames| && m in b.matchFrames[k]
    ensures r.Some? ==> forall d :: d in r.value.deliveries <==> exists k :: 0 <= k < |b.deliveryFrames| && d in b.deliveryFrames[k]
    ensures r.Some? ==> |r.value.matches| == FrameSizes(b.matchFrames) && |r.value.deliveries| == FrameSizes(b.deliveryFrames)
  {
    if |b.matchFrames| == 0 then None
    else
      var t := Tables(format, Flatten(b.matchFrames), Flatten(b.deliveryFrames));
      FlattenLength(b.matchFrames);
      FlattenLength(b.deliveryFrames);
      assert forall m :: m in t.matches <==> exists k :: 0 <= k < |b.matchFrames| && m in b.matchFrames[k] by {
        forall m {
          FlattenMembers(b.matchFrames, m);
        }
      }
      assert forall d :: d in t.deliveries <==> exists k :: 0 <= k < |b.deliveryFrames| && d in b.deliveryFrames[k] by {
        forall d {
          FlattenMembers(b.deliveryFrames, d);
        }
      }
      Some(t)
  }

  /** The deliveries of the files that contribute, counted last file first. */
  function ParsedBalls(files: seq<FileEntry>): nat
    decreases |files|
  {
    if |files| == 0 then 0
    else
      var f := files[|files| - 1];
      ParsedBalls(files[..|files| - 1]) + if Contributes(f) then BallCount(f.content.doc.innings) else 0
  }

  /** The delivery frames of a folder hold one row per delivery of every file that
      contributes. */
  lemma {:induction false} CollectBalls(format: string, files: seq<FileEntry>)
    ensures FrameSizes(Collect(format, files).deliveryFrames) == ParsedBalls(files)
    decreases |files|
  {
    if |files| > 0 {
      var init, f := files[..|files| - 1], files[|files| - 1];
      var b := Collect(format, init);
      CollectBalls(format, init);
      assert Collect(format, files) == Absorb(b, f, format);
      if Contributes(f) {
        var v := Ingest(f.content, format).value;
        AbsorbContributes(b, f, format);
        FrameSizesSnoc(b.deliveryFrames, v.1);
      } else {
        assert Absorb(b, f, format) == b;
      }
    }
  }

  lemma FrameSizesSnoc<T>(frames: seq<seq<T>>, frame: seq<T>)
    ensures FrameSizes(frames + [frame]) == FrameSizes(frames) + |frame|
  {
    assert (frames + [frame])[..|frames|] == frames;
  }

  /** What one format folder loads: no tables when no file parsed; otherwise one
      match row per parsed file, every one of this format, every delivery row
      belongs to one of those matches, and there is one delivery row per delivery
      of every parsed file. */
  lemma FormatTables(format: string, files: seq<FileEntry>)
    ensures var t := Materialise(format, Collect(format, files));
      && (t.None? <==> Successes(files) == 0)
      && (t.Some? ==>
            && |t.value.matches| == Successes(files)
            && (forall m :: m in t.value.matches ==> m.format == format)
            && (forall d :: d in t.value.deliveries ==> exists m :: m in t.value.matches && m.matchId == d.matchId)
            && |t.value.deliveries| == ParsedBalls(files))
  {
    var b := Collect(format, files);
    CollectCounts(format, files);
    CollectBalls(format, files);
    if |b.matchFrames| > 0 {
      FlattenSingletons(b.matchFrames);
      var matches := Flatten(b.matchFrames);
      forall d | d in Flatten(b.deliveryFrames)
        ensures exists m :: m in matches && m.matchId == d.matchId
      {
        FlattenMembers(b.deliveryFrames, d);
        var k :| 0 <= k < |b.deliveryFrames| && d in b.deliveryFrames[k];
        assert matches[k] in matches;
      }
      forall m | m in matches
        ensures m.format == format
      {
        var k :| 0 <= k < |matches| && matches[k] == m;
        assert m == b.matchFrames[k][0];
      }
    }
  }

  /** Match ids are not deduplicated across files: the same match listed twice
      loads two rows with the same id. */
  lemma DuplicateFilesKeepBothRows(format: string, f1: FileEntry, f2: FileEntry)
    requires Contributes(f1) && f2.content == f1.content && EndsWith(f2.name, JsonSuffix)
    ensures var t := Materialise(format, Collect(format, [f1, f2]));
      t.Some? && |t.value.matches| == 2 && t.value.matches[0].matchId == t.value.matches[1].matchId
  {
    var v := Ingest(f1.content, format).value;
    CollectTwice(format, f1, f2);
    TwoFramesTwoRows(format, v.0, v.1);
  }

  /** Two contributing files with the same content collect the same frames twice. */
  lemma CollectTwice(format: string, f1: FileEntry, f2: FileEntry)
    requires Contributes(f1) && f2.content == f1.content && EndsWith(f2.name, JsonSuffix)
    ensures var v := Ingest(f1.content, format).value;
      Collect(format, [f1, f2]) == Batch([v.0, v.0], [v.1, v.1])
  {
    var v := Ingest(f1.content, format).value;
    var b1 := Absorb(Batch([], []), f1, format);
    assert b1 == Batch([v.0], [v.1]) by {
      AbsorbContributes(Batch([], []), f1, format);
    }
    assert Absorb(b1, f2, format) == Batch([v.0, v.0], [v.1, v.1]) by {
      AbsorbContributes(b1, f2, format);
      Doubled(v.0);
      Doubled(v.1);
    }
    CollectPair(format, f1, f2);
  }

  lemma Doubled<T>(x: T)
    ensures [x] + [x] == [x, x]
  {
  }

  /** Collecting two files absorbs the first into the empty batch, then the second. */
  lemma CollectPair(format: string, f1: FileEntry, f2: FileEntry)
    ensures Collect(format, [f1, f2]) == Absorb(Absorb(Batch([], []), f1, format), f2, format)
  {
    assert Collect(format, [f1]) == Absorb(Batch([], []), f1, format) by {
      CollectSnoc(format, [], f1);
      assert [] + [f1] == [f1];
    }
    CollectSnoc(format, [f1], f2);
    assert [f1] + [f2] == [f1, f2];
  }

  lemma TwoFramesTwoRows(format: string, m: seq<MatchRow>, d: seq<DeliveryRow>)
    requires |m| == 1
    ensures var t := Materialise(format, Batch([m, m], [d, d]));
      t.Some? && |t.value.matches| == 2 && t.value.matches[0] == t.value.matches[1] == m[0]
  {
    FlattenSingletons([m, m]);
  }

  lemma AbsorbContributes(b: Batch, f: FileEntry, format: string)
    requires Contributes(f)
    ensures var v := Ingest(f.content, format).value;
      Absorb(b, f, format) == Batch(b.matchFrames + [v.0], b.deliveryFrames + [v.1])
  {
  }

  // ---------------------------------------------------------------- all formats

  /** The tables one directory entry loads: none for a plain file or a folder
      without a parsed file. */
  function TablesOf(e: Entry): Option<Tables>
  {
    match e
    case Plain(_) => None
    case Folder(format, files) => Materialise(format, Collect(format, files))
  }

  /** The present values, in order. */
  function Present<T>(xs: seq<Option<T>>): (r: seq<T>)
    ensures |r| <= |xs|
  {
    if |xs| == 0 then []
    else (match xs[0] case None => [] case Some(v) => [v]) + Present(xs[1..])
  }

  lemma {:induction false} PresentMembers<T>(xs: seq<Option<T>>, v: T)
    ensures v in Present(xs) <==> exists i :: 0 <= i < |xs| && xs[i] == Some(v)
  {
    if |xs| > 0 {
      var rest := xs[1..];
      PresentMembers(rest, v);
      if exists i :: 0 <= i < |xs| && xs[i] == Some(v) {
        var i :| 0 <= i < |xs| && xs[i] == Some(v);
        if i > 0 {
          assert rest[i - 1] == Some(v);
        }
      }
      if exists i :: 0 <= i < |rest| && rest[i] == Some(v) {
        var i :| 0 <= i < |rest| && rest[i] == Some(v);
        assert xs[i + 1] == Some(v);
      }
    }
  }

  /** Lines 113-175: the tables of every format folder that had a parsed file, in
      listing order. Folder names are unique in a directory listing, so the code's
      per-format dictionaries are a sequence here. */
  function ProcessAndLoad(entries: seq<Entry>): (r: seq<Tables>)
    ensures |r| <= |entries|
  {
    Present(seq(|entries|, i requires 0 <= i < |entries| => TablesOf(entries[i])))
  }

  /** The entries are loaded one by one in listing order: the tables of two runs of
      entries are those of the first run followed by those of the second. */
  lemma ProcessAndLoadAppend(e1: seq<Entry>, e2: seq<Entry>)
    ensures ProcessAndLoad(e1 + e2) == ProcessAndLoad(e1) + ProcessAndLoad(e2)
  {
    var all := e1 + e2;
    var ys := seq(|e1|, i requires 0 <= i < |e1| => TablesOf(e1[i]));
    var zs := seq(|e2|, i requires 0 <= i < |e2| => TablesOf(e2[i]));
    assert seq(|all|, i requires 0 <= i < |all| => TablesOf(all[i])) == ys + zs;
    PresentAppend(ys, zs);
  }

  /** One entry loads its own table pair, if it yields one, and nothing else. */
  lemma ProcessAndLoadOne(e: Entry)
    ensures ProcessAndLoad([e]) == if TablesOf(e).Some? then [TablesOf(e).value] else []
  {
    assert seq(1, i requires 0 <= i < 1 => TablesOf([e][i])) == [TablesOf(e)];
  }

  lemma {:induction false} PresentAppend<T>(xs: seq<Option<T>>, ys: seq<Option<T>>)
    ensures Present(xs + ys) == Present(xs) + Present(ys)
    decreases |xs|
  {
    if |xs| == 0 {
      assert xs + ys == ys;
    } else {
      var head := Present(xs[..1]);
      assert Present(xs) == head + Present(xs[1..]);
      assert Present(xs + ys) == head + Present(xs[1..] + ys) by {
        assert (xs + ys)[1..] == xs[1..] + ys;
        assert (xs + ys)[..1] == xs[..1];
      }
      PresentAppend(xs[1..], ys);
    }
  }

  /** A table pair is loaded exactly when some folder yields it (by `FormatTables`,
      a folder yields a pair exactly when one of its files parses). */
  lemma LoadedFormats(entries: seq<Entry>, t: Tables)
    ensures t in ProcessAndLoad(entries) <==> exists i :: 0 <= i < |entries| && TablesOf(entries[i]) == Some(t)
  {
    var xs := seq(|entries|, i requires 0 <= i < |entries| => TablesOf(entries[i]));
    PresentMembers(xs, t);
    assert forall i :: 0 <= i < |entries| ==> xs[i] == TablesOf(entries[i]);
  }
}

=== FILE: sql_queries.dfy ===
/** The named-query file reader (`run_analysis.py`, `load_queries_from_sql`, lines
    17-50). A file is a sequence of lines; a line whose stripped text starts with
    `-- name:` opens a block, and the block's non-empty, non-comment lines, stripped
    and joined by single spaces, become the query stored under that name.

    Two definitions are given and proved equal: `LoadQueries`, the line-by-line
    state machine the code runs, and `Assemble(Blocks(lines))`, which first cuts the
    file into blocks and then stores them in order. */
module SqlQueries {
  import opened Wrappers
  import opened Text

  const TagPrefix := "-- name:"
  const CommentPrefix := "--"

  // ---------------------------------------------------------------- lines

  /** Line 26: the line opens a new block. */
  predicate IsTag(line: string) {
    StartsWith(Strip(line), TagPrefix)
  }

  /** A tag line contains the `:` that line 32 splits at. */
  lemma TagHasColon(line: string)
    requires IsTag(line)
    ensures ':' in line
  {
    var s := Strip(line);
    assert s[7] == TagPrefix[7] == ':';
    StripChars(line, ':');
  }

  /** Line 32: the text between the first and the second `:` of the raw line, stripped. */
  function TagName(line: string): (name: string)
    requires IsTag(line)
    ensures Trimmed(name)
    ensures ':' !in name
  {
    TagHasColon(line);
    var parts := Split(line, ':');
    var name := Strip(parts[1]);
    assert ':' !in name by {
      if ':' in name {
        StripChars(parts[1], ':');
      }
    }
    name
  }

  /** The name is what stands between the line's first and second `:` (or the end
      of the line), with its outer whitespace removed. */
  lemma TagNameOf(line: string, before: string, name: string, after: string)
    requires IsTag(line)
    requires line == before + [':'] + name + after
    requires ':' !in before && ':' !in name
    requires after == [] || after[0] == ':'
    ensures TagName(line) == Strip(name)
  {
    SplitSecond(before, name, after, ':');
  }

  /** Line 37: a stripped line the block keeps. */
  predicate IsBodyLine(stripped: string) {
    stripped != [] && !StartsWith(stripped, CommentPrefix)
  }

  /** Lines 36-38 over a run of lines: the stripped lines the block keeps, in order. */
  function BodyLines(lines: seq<string>): (body: seq<string>)
    ensures |body| <= |lines|
    ensures forall i :: 0 <= i < |body| ==> IsBodyLine(body[i]) && Trimmed(body[i])
    ensures forall s :: s in body <==> exists i :: 0 <= i < |lines| && s == Strip(lines[i]) && IsBodyLine(s)
  {
    if |lines| == 0 then []
    else
      var s := Strip(lines[0]);
      var rest := BodyLines(lines[1..]);
      var body := (if IsBodyLine(s) then [s] else []) + rest;
      assert forall t :: t in body <==> exists i :: 0 <= i < |lines| && t == Strip(lines[i]) && IsBodyLine(t) by {
        forall t
          ensures t in body <==> exists i :: 0 <= i < |lines| && t == Strip(lines[i]) && IsBodyLine(t)
        {
          if t in rest {
            var i :| 0 <= i < |lines| - 1 && t == Strip(lines[1..][i]) && IsBodyLine(t);
            assert lines[i + 1] == lines[1..][i];
          }
          if exists i :: 0 <= i < |lines| && t == Strip(lines[i]) && IsBodyLine(t) {
            var i :| 0 <= i < |lines| && t == Strip(lines[i]) && IsBodyLine(t);
            if i > 0 {
              assert lines[1..][i - 1] == lines[i];
            }
          }
        }
      }
      body
  }

  lemma {:induction false} BodyLinesAppend(xs: seq<string>, ys: seq<string>)
    ensures BodyLines(xs + ys) == BodyLines(xs) + BodyLines(ys)
    decreases |xs|
  {
    if |xs| == 0 {
      assert xs + ys == ys;
    } else {
      assert (xs + ys)[1..] == xs[1..] + ys;
      BodyLinesAppend(xs[1..], ys);
    }
  }

  /** A block's collected lines joined as line 29 joins them already has no outer
      whitespace, so the final `.strip()` changes nothing, and the query is never
      empty. */
  lemma {:induction false} JoinBodyTrimmed(body: seq<string>)
    requires |body| > 0
    requires forall i :: 0 <= i < |body| ==> body[i] != [] && Trimmed(body[i])
    ensures var q := Join(body, " ");
      q != [] && Trimmed(q) && Strip(q) == q
    decreases |body|
  {
    var q := Join(body, " ");
    if |body| > 1 {
      JoinBodyTrimmed(body[1..]);
      var rest := Join(body[1..], " ");
      assert q == body[0] + " " + rest;
      assert q[0] == body[0][0];
      assert q[|q| - 1] == rest[|rest| - 1];
    }
    StripTrimmed(q);
  }

  // ---------------------------------------------------------------- the state machine

  /** The loop state of lines 19-21: the queries saved so far, the name of the block
      being read (`None` before the first tag) and its collected lines. */
  datatype Reader = Reader(queries: map<string, string>, name: Option<string>, body: seq<string>)

  const Start := Reader(map[], None, [])

  /** Lines 28-29 and 41-42: store the block when it has a non-empty name and at
      least one line. */
  function Save(queries: map<string, string>, name: Option<string>, body: seq<string>): (m: map<string, string>)
    ensures forall k :: k in m <==> k in queries || (name.Some? && k == name.value && name.value != "" && |body| > 0)
    ensures forall k :: k in queries && (name.None? || k != name.value) ==> m[k] == queries[k]
  {
    if name.Some? && name.value != "" && |body| > 0 then queries[name.value := Strip(Join(body, " "))]
    else queries
  }

  /** Lines 26-38: one line of input. */
  function Step(r: Reader, line: string): (n: Reader)
    ensures IsTag(line) ==> n.name == Some(TagName(line)) && n.body == []
    ensures !IsTag(line) ==> n.queries == r.queries && n.name == r.name
    ensures !IsTag(line) && r.name.None? ==> n == r
    ensures !IsTag(line) ==> n.body == r.body || (r.name.Some? && n.body == r.body + [Strip(line)])
  {
    if IsTag(line) then Reader(Save(r.queries, r.name, r.body), Some(TagName(line)), [])
    else if r.name.Some? && IsBodyLine(Strip(line)) then r.(body := r.body + [Strip(line)])
    else r
  }

  /** Lines 25-38: the loop over the lines. */
  function Run(r: Reader, lines: seq<string>): (n: Reader)
    ensures n.name.None? <==> r.name.None? && forall i :: 0 <= i < |lines| ==> !IsTag(lines[i])
    ensures (forall i :: 0 <= i < |lines| ==> !IsTag(lines[i])) ==> n.queries == r.queries && n.name == r.name
    decreases |lines|
  {
    if |lines| == 0 then r
    else
      var n := Run(Step(r, lines[0]), lines[1..]);
      assert forall i :: 1 <= i < |lines| ==> lines[1..][i - 1] == lines[i];
      n
  }

  /** Lines 17-50. `None` is a file that cannot be opened or read, for which the
      code reports the error and returns an empty dictionary. Every name and every
      query is non-empty and has no outer whitespace. */
  function LoadQueries(file: Option<seq<string>>): (queries: map<string, string>)
    ensures file.None? ==> queries == map[]
    ensures forall k :: k in queries ==> k != "" && Trimmed(k) && queries[k] != "" && Trimmed(queries[k])
  {
    match file
    case None => map[]
    case Some(lines) =>
      var r := Run(Start, lines);
      RunKeepsWellFormed(Start, lines);
      Finish(r)
  }

  /** Lines 41-42: the last block is stored when the input ends. */
  function Finish(r: Reader): (m: map<string, string>)
    ensures forall k :: k in r.queries ==> k in m
    ensures r.name.Some? && r.name.value != "" && |r.body| > 0 ==> r.name.value in m
  {
    Save(r.queries, r.name, r.body)
  }

  /** The machine's state is always one the code can reach: names and queries are
      non-empty and trimmed, and the collected lines are kept body lines. */
  predicate WellFormed(r: Reader) {
    && (forall k :: k in r.queries ==> k != "" && Trimmed(k) && r.queries[k] != "" && Trimmed(r.queries[k]))
    && (r.name.Some? ==> Trimmed(r.name.value))
    && (forall i :: 0 <= i < |r.body| ==> IsBodyLine(r.body[i]) && Trimmed(r.body[i]))
  }

  lemma SaveKeepsWellFormed(r: Reader)
    requires WellFormed(r)
    ensures WellFormed(Reader(Save(r.queries, r.name, r.body), None, []))
  {
    if r.name.Some? && r.name.value != "" && |r.body| > 0 {
      JoinBodyTrimmed(r.body);
    }
  }

  lemma {:induction false} RunKeepsWellFormed(r: Reader, lines: seq<string>)
    requires WellFormed(r)
    ensures WellFormed(Reader(Finish(Run(r, lines)), None, []))
    decreases |lines|
  {
    if |lines| == 0 {
      SaveKeepsWellFormed(r);
    } else {
      var next := Step(r, lines[0]);
      if IsTag(lines[0]) {
        SaveKeepsWellFormed(r);
      }
      assert WellFormed(next);
      RunKeepsWellFormed(next, lines[1..]);
    }
  }

  // ---------------------------------------------------------------- blocks

  /** A `-- name:` block: its name and the lines it keeps. */
  datatype Block = Block(name: string, body: seq<string>)

  /** The position of the first tag line, or `|lines|` when there is none. */
  function FirstTag(lines: seq<string>): (j: nat)
    ensures j <= |lines|
    ensures forall k :: 0 <= k < j ==> !IsTag(lines[k])
    ensures j < |lines| ==> IsTag(lines[j])
  {
    if |lines| == 0 || IsTag(lines[0]) then 0 else 1 + FirstTag(lines[1..])
  }

  /** The file cut into blocks: lines before the first tag belong to none, and each
      tag's block runs to the next tag or the end. */
  function Blocks(lines: seq<string>): seq<Block>
    decreases |lines|
  {
    if |lines| == 0 then []
    else if !IsTag(lines[0]) then Blocks(lines[1..])
    else
      var rest := lines[1..];
      var j := FirstTag(rest);
      [Block(TagName(lines[0]), BodyLines(rest[..j]))] + Blocks(rest[j..])
  }

  /** A block is stored when it has a name and a line. */
  predicate Stored(b: Block) {
    b.name != "" && |b.body| > 0
  }

  /** Stores one block, replacing an earlier query of the same name. */
  function AddBlock(m: map<string, string>, b: Block): map<string, string>
  {
    if Stored(b) then m[b.name := Join(b.body, " ")] else m
  }

  /** Stores the blocks first to last. */
  function Assemble(m: map<string, string>, blocks: seq<Block>): map<string, string>
    decreases |blocks|
  {
    if |blocks| == 0 then m else Assemble(AddBlock(m, blocks[0]), blocks[1..])
  }

  // ---------------------------------------------------------------- machine == blocks

  /** Saving what the machine collected stores the same as adding the block. */
  lemma SaveIsAddBlock(m: map<string, string>, name: string, body: seq<string>)
    requires forall i :: 0 <= i < |body| ==> IsBodyLine(body[i]) && Trimmed(body[i])
    ensures Save(m, Some(name), body) == AddBlock(m, Block(name, body))
  {
    if name != "" && |body| > 0 {
      JoinBodyTrimmed(body);
    }
  }

  /** What the blocks give from inside a block named `name` that has kept `body` so
      far: the rest of that block, then the blocks after it. */
  function InBlock(q: map<string, string>, name: string, body: seq<string>, lines: seq<string>): map<string, string>
  {
    var j := FirstTag(lines);
    Assemble(q, [Block(name, body + BodyLines(lines[..j]))] + Blocks(lines[j..]))
  }

  lemma InBlockAtEnd(q: map<string, string>, name: string, body: seq<string>)
    requires forall i :: 0 <= i < |body| ==> IsBodyLine(body[i]) && Trimmed(body[i])
    ensures InBlock(q, name, body, []) == Save(q, Some(name), body)
  {
    var none: seq<string> := [];
    assert FirstTag(none) == 0 && none[..0] == none && none[0..] == none;
    assert body + BodyLines(none) == body;
    assert [Block(name, body)] + Blocks(none) == [Block(name, body)];
    assert [Block(name, body)][1..] == [];
    assert Assemble(q, [Block(name, body)]) == AddBlock(q, Block(name, body));
    SaveIsAddBlock(q, name, body);
  }

  lemma InBlockAtTag(q: map<string, string>, name: string, body: seq<string>, lines: seq<string>)
    requires forall i :: 0 <= i < |body| ==> IsBodyLine(body[i]) && Trimmed(body[i])
    requires |lines| > 0 && IsTag(lines[0])
    ensures InBlock(q, name, body, lines) == InBlock(Save(q, Some(name), body), TagName(lines[0]), [], lines[1..])
  {
    assert FirstTag(lines) == 0;
    assert lines[..0] == [] && lines[0..] == lines;
    assert body + BodyLines([]) == body;
    SaveIsAddBlock(q, name, body);
    var rest := lines[1..];
    var j := FirstTag(rest);
    assert [] + BodyLines(rest[..j]) == BodyLines(rest[..j]);
  }

  /** The kept lines of a run that starts with `line`. */
  lemma BodyLinesCons(line: string, lines: seq<string>)
    ensures var s := Strip(line);
      BodyLines([line] + lines) == (if IsBodyLine(s) then [s] else []) + BodyLines(lines)
  {
    assert ([line] + lines)[1..] == lines;
  }

  lemma InBlockShift(q: map<string, string>, name: string, body: seq<string>, kept: seq<string>,
                     lines: seq<string>, rest: seq<string>)
    requires FirstTag(lines) == FirstTag(rest) + 1
    requires BodyLines(lines[..FirstTag(lines)]) == kept + BodyLines(rest[..FirstTag(rest)])
    requires lines[FirstTag(lines)..] == rest[FirstTag(rest)..]
    ensures InBlock(q, name, body, lines) == InBlock(q, name, body + kept, rest)
  {
    var j, j' := FirstTag(lines), FirstTag(rest);
    assert body + BodyLines(lines[..j]) == (body + kept) + BodyLines(rest[..j']);
  }

  lemma InBlockAtLine(q: map<string, string>, name: string, body: seq<string>, lines: seq<string>)
    requires |lines| > 0 && !IsTag(lines[0])
    ensures var s := Strip(lines[0]);
      InBlock(q, name, body, lines) == InBlock(q, name, body + if IsBodyLine(s) then [s] else [], lines[1..])
  {
    var rest := lines[1..];
    var s := Strip(lines[0]);
    var kept := if IsBodyLine(s) then [s] else [];
    var j, j' := FirstTag(lines), FirstTag(rest);
    assert BodyLines(lines[..j]) == kept + BodyLines(rest[..j']) by {
      assert lines[..j] == [lines[0]] + rest[..j'];
      BodyLinesCons(lines[0], rest[..j']);
    }
    assert lines[j..] == rest[j'..];
    InBlockShift(q, name, body, kept, lines, rest);
  }

  /** Inside a block named `name` that has collected `body` so far, the machine ends
      with what the rest of the block and the remaining blocks give. */
  lemma {:induction false} RunInBlock(q: map<string, string>, name: string, body: seq<string>, lines: seq<string>)
    requires forall i :: 0 <= i < |body| ==> IsBodyLine(body[i]) && Trimmed(body[i])
    ensures Finish(Run(Reader(q, Some(name), body), lines)) == InBlock(q, name, body, lines)
    decreases |lines|
  {
    var r := Reader(q, Some(name), body);
    if |lines| == 0 {
      InBlockAtEnd(q, name, body);
    } else if IsTag(lines[0]) {
      InBlockAtTag(q, name, body, lines);
      assert Step(r, lines[0]) == Reader(Save(q, Some(name), body), Some(TagName(lines[0])), []);
      RunInBlock(Save(q, Some(name), body), TagName(lines[0]), [], lines[1..]);
    } else {
      var s := Strip(lines[0]);
      var kept := if IsBodyLine(s) then [s] else [];
      InBlockAtLine(q, name, body, lines);
      assert Step(r, lines[0]) == Reader(q, Some(name), body + kept);
      RunInBlock(q, name, body + kept, lines[1..]);
    }
  }

  /** Before the first tag the machine skips lines, and from there on it stores the
      blocks in order. */
  lemma {:induction false} RunBeforeBlocks(q: map<string, string>, lines: seq<string>)
    ensures Finish(Run(Reader(q, None, []), lines)) == Assemble(q, Blocks(lines))
    decreases |lines|
  {
    if |lines| > 0 {
      var rest := lines[1..];
      if IsTag(lines[0]) {
        RunInBlock(q, TagName(lines[0]), [], rest);
        var j := FirstTag(rest);
        assert [] + BodyLines(rest[..j]) == BodyLines(rest[..j]);
        assert Blocks(lines) == [Block(TagName(lines[0]), BodyLines(rest[..j]))] + Blocks(rest[j..]);
      } else {
        RunBeforeBlocks(q, rest);
      }
    }
  }

  /** The reader stores exactly the blocks of the file, first to last. */
  lemma LoadQueriesIsAssemble(lines: seq<string>)
    ensures LoadQueries(Some(lines)) == Assemble(map[], Blocks(lines))
  {
    RunBeforeBlocks(map[], lines);
  }

  // ---------------------------------------------------------------- properties

  lemma {:induction false} AssembleAppend(m: map<string, string>, xs: seq<Block>, ys: seq<Block>)
    ensures Assemble(m, xs + ys) == Assemble(Assemble(m, xs), ys)
    decreases |xs|
  {
    if |xs| == 0 {
      assert xs + ys == ys;
    } else {
      assert (xs + ys)[1..] == xs[1..] + ys;
      AssembleAppend(AddBlock(m, xs[0]), xs[1..], ys);
    }
  }

  /** Blocks that store nothing under `name` leave its entry as it was. */
  lemma {:induction false} AssembleUntouched(m: map<string, string>, blocks: seq<Block>, name: string)
    requires forall i :: 0 <= i < |blocks| ==> !(Stored(blocks[i]) && blocks[i].name == name)
    ensures name in Assemble(m, blocks) <==> name in m
    ensures name in m ==> Assemble(m, blocks)[name] == m[name]
    decreases |blocks|
  {
    if |blocks| > 0 {
      AssembleUntouched(AddBlock(m, blocks[0]), blocks[1..], name);
    }
  }

  /** A name is stored exactly when some block with that name has a line. */
  lemma {:induction false} AssembleKeys(m: map<string, string>, blocks: seq<Block>, name: string)
    ensures name in Assemble(m, blocks) <==>
              name in m || exists i :: 0 <= i < |blocks| && Stored(blocks[i]) && blocks[i].name == name
    decreases |blocks|
  {
    if |blocks| > 0 {
      AssembleKeys(AddBlock(m, blocks[0]), blocks[1..], name);
      if exists i :: 0 <= i < |blocks| && Stored(blocks[i]) && blocks[i].name == name {
        var i :| 0 <= i < |blocks| && Stored(blocks[i]) && blocks[i].name == name;
        if i > 0 {
          assert Stored(blocks[1..][i - 1]);
        }
      }
      if exists i :: 0 <= i < |blocks[1..]| && Stored(blocks[1..][i]) && blocks[1..][i].name == name {
        var i :| 0 <= i < |blocks[1..]| && Stored(blocks[1..][i]) && blocks[1..][i].name == name;
        assert blocks[i + 1] == blocks[1..][i];
      }
    }
  }

  /** The last stored block of a name decides its query: a later block with the
      same name replaces an earlier one. */
  lemma LastBlockWins(m: map<string, string>, xs: seq<Block>, b: Block, ys: seq<Block>)
    requires Stored(b)
    requires forall i :: 0 <= i < |ys| ==> !(Stored(ys[i]) && ys[i].name == b.name)
    ensures var q := Assemble(m, xs + [b] + ys);
      b.name in q && q[b.name] == Join(b.body, " ")
  {
    AssembleAppend(m, xs + [b], ys);
    AssembleAppend(m, xs, [b]);
    var before := Assemble(m, xs);
    assert Assemble(before, [b]) == AddBlock(before, b);
    AssembleUntouched(AddBlock(before, b), ys, b.name);
  }

  /** Lines before the first tag make no difference. */
  lemma {:induction false} PreambleIgnored(preamble: seq<string>, lines: seq<string>)
    requires forall i :: 0 <= i < |preamble| ==> !IsTag(preamble[i])
    ensures LoadQueries(Some(preamble + lines)) == LoadQueries(Some(lines))
  {
    PreambleBlocks(preamble, lines);
    LoadQueriesIsAssemble(preamble + lines);
    LoadQueriesIsAssemble(lines);
  }

  lemma {:induction false} PreambleBlocks(preamble: seq<string>, lines: seq<string>)
    requires forall i :: 0 <= i < |preamble| ==> !IsTag(preamble[i])
    ensures Blocks(preamble + lines) == Blocks(lines)
    decreases |preamble|
  {
    if |preamble| == 0 {
      assert preamble + lines == lines;
    } else {
      assert (preamble + lines)[0] == preamble[0];
      assert (preamble + lines)[1..] == preamble[1..] + lines;
      PreambleBlocks(preamble[1..], lines);
    }
  }

  /** A file without a tag line yields no queries. */
  lemma NoTagsNoQueries(lines: seq<string>)
    requires forall i :: 0 <= i < |lines| ==> !IsTag(lines[i])
    ensures LoadQueries(Some(lines)) == map[]
  {
    PreambleIgnored(lines, []);
    assert lines + [] == lines;
  }

  /** A name is loaded exactly when some block of the file carries it and keeps at
      least one line. */
  lemma LoadedNames(lines: seq<string>, name: string)
    ensures var blocks := Blocks(lines);
      name in LoadQueries(Some(lines)) <==>
        exists i :: 0 <= i < |blocks| && Stored(blocks[i]) && blocks[i].name == name
  {
    LoadQueriesIsAssemble(lines);
    AssembleKeys(map[], Blocks(lines), name);
  }
}

=== FILE: text.dfy ===
/** The Python string operations the pipeline relies on (`str.count`, `str.replace`,
    `str.join`, `str.split`, `str.strip`, `str.startswith`, `str(int)`), each for the
    single-character patterns the code actually uses, with the laws that relate them. */
module Text {
  import opened Wrappers

  // ---------------------------------------------------------------- counting

  /** `s.count(c)` for a one-character pattern. */
  function Count(s: string, c: char): (n: nat)
    ensures n <= |s|
    ensures n == 0 <==> c !in s
  {
    if |s| == 0 then 0
    else
      assert c in s <==> s[0] == c || c in s[1..];
      (if s[0] == c then 1 else 0) + Count(s[1..], c)
  }

  lemma {:induction false} CountConcat(a: string, b: string, c: char)
    ensures Count(a + b, c) == Count(a, c) + Count(b, c)
  {
    if |a| == 0 {
      assert a + b == b;
    } else {
      assert (a + b)[1..] == a[1..] + b;
      CountConcat(a[1..], b, c);
    }
  }

  // ---------------------------------------------------------------- replacing

  /** `s.replace(c, with)` for a one-character pattern `c`: every occurrence of `c`
      becomes `with`, every other character is kept, in order. */
  function Replace(s: string, c: char, with: string): (r: string)
    ensures forall x :: x in r ==> (x in s && x != c) || x in with
    ensures c !in s ==> r == s
    ensures |s| == 1 ==> r == if s[0] == c then with else s
  {
    if |s| == 0 then ""
    else
      assert forall x :: x in s[1..] ==> x in s;
      (if s[0] == c then with else [s[0]]) + Replace(s[1..], c, with)
  }

  lemma {:induction false} ReplaceConcat(a: string, b: string, c: char, with: string)
    ensures Replace(a + b, c, with) == Replace(a, c, with) + Replace(b, c, with)
  {
    if |a| == 0 {
      assert a + b == b;
    } else {
      assert (a + b)[1..] == a[1..] + b;
      ReplaceConcat(a[1..], b, c, with);
    }
  }

  // ---------------------------------------------------------------- joining and splitting

  /** `sep.join(parts)`: empty for no parts, the part itself for one, and one
      separator between each two neighbours, so its length is the parts' lengths
      plus one separator fewer than there are parts. */
  function Join(parts: seq<string>, sep: string): (r: string)
    ensures |parts| == 0 ==> r == ""
    ensures |parts| == 1 ==> r == parts[0]
    ensures |parts| > 0 ==> |r| == TotalLength(parts) + (|parts| - 1) * |sep|
  {
    if |parts| == 0 then ""
    else if |parts| == 1 then parts[0]
    else parts[0] + sep + Join(parts[1..], sep)
  }

  /** The summed lengths of `parts`. */
  function TotalLength(parts: seq<string>): nat
  {
    if |parts| == 0 then 0 else |parts[0]| + TotalLength(parts[1..])
  }

  /** The first position of `c` in `s`. */
  function IndexOf(s: string, c: char): (i: nat)
    requires c in s
    ensures i < |s| && s[i] == c && c !in s[..i]
  {
    if s[0] == c then 0
    else
      assert c in s[1..];
      var j := IndexOf(s[1..], c);
      assert s[..j + 1] == [s[0]] + s[1..][..j];
      1 + j
  }

  /** The last position of `c` in `s`. */
  function LastIndexOf(s: string, c: char): (i: nat)
    requires c in s
    ensures i < |s| && s[i] == c && c !in s[i + 1..]
  {
    if s[|s| - 1] == c then |s| - 1
    else
      assert s == s[..|s| - 1] + [s[|s| - 1]];
      assert c in s[..|s| - 1];
      var j := LastIndexOf(s[..|s| - 1], c);
      assert s[j + 1..] == s[..|s| - 1][j + 1..] + [s[|s| - 1]];
      j
  }

  lemma IndexOfAfterPrefix(a: string, b: string, c: char)
    requires c !in a
    ensures c in a + [c] + b
    ensures IndexOf(a + [c] + b, c) == |a|
  {
    var s := a + [c] + b;
    assert s[|a|] == c;
    assert forall j :: 0 <= j < |a| ==> s[j] == a[j];
    var i := IndexOf(s, c);
    assert i <= |a| ==> s[..i] == a[..i];
  }

  lemma LastIndexOfBeforeSuffix(a: string, b: string, c: char)
    requires c !in b
    ensures c in a + [c] + b
    ensures LastIndexOf(a + [c] + b, c) == |a|
  {
    var s := a + [c] + b;
    assert s[|a|] == c;
    assert forall j :: |a| < j < |s| ==> s[j] == b[j - |a| - 1];
    var i := LastIndexOf(s, c);
  }

  /** `s.split(c)` for a one-character separator: the maximal `c`-free segments. */
  function Split(s: string, c: char): (parts: seq<string>)
    ensures |parts| >= 1
    ensures forall i :: 0 <= i < |parts| ==> c !in parts[i]
    ensures c !in s ==> parts == [s]
    ensures c in s ==> |parts| >= 2
    decreases |s|
  {
    if c !in s then [s]
    else
      var i := IndexOf(s, c);
      [s[..i]] + Split(s[i + 1..], c)
  }

  /** Splitting on `c` and joining back with `c` gives the original string. */
  lemma {:induction false} JoinSplit(s: string, c: char)
    ensures Join(Split(s, c), [c]) == s
    decreases |s|
  {
    if c in s {
      var i := IndexOf(s, c);
      JoinSplit(s[i + 1..], c);
      assert s == s[..i] + [c] + s[i + 1..];
    }
  }

  /** Joining `c`-free segments with `c` and splitting on `c` gives the segments back. */
  lemma {:induction false} SplitJoin(parts: seq<string>, c: char)
    requires |parts| >= 1
    requires forall i :: 0 <= i < |parts| ==> c !in parts[i]
    ensures Split(Join(parts, [c]), c) == parts
  {
    if |parts| > 1 {
      var tail := Join(parts[1..], [c]);
      IndexOfAfterPrefix(parts[0], tail, c);
      assert Join(parts, [c]) == parts[0] + [c] + tail;
      assert (parts[0] + [c] + tail)[|parts[0]| + 1..] == tail;
      assert (parts[0] + [c] + tail)[..|parts[0]|] == parts[0];
      SplitJoin(parts[1..], c);
    } else {
      assert parts[0] == Join(parts, [c]);
    }
  }

  /** Splitting text joined at a separator gives the segments of the left part
      followed by those of the right part. */
  lemma {:induction false} SplitConcat(a: string, b: string, c: char)
    ensures Split(a + [c] + b, c) == Split(a, c) + Split(b, c)
    decreases |a|
  {
    if c !in a {
      SplitFirst(a, b, c);
    } else {
      var i := IndexOf(a, c);
      var head, rest := a[..i], a[i + 1..];
      assert Split(a + [c] + b, c) == [head] + Split(rest + [c] + b, c) by {
        assert a + [c] + b == head + [c] + (rest + [c] + b);
        SplitFirst(head, rest + [c] + b, c);
      }
      SplitConcat(rest, b, c);
    }
  }

  /** `SplitConcat` twice: three parts joined by the separator split into the
      segments of each part in turn. */
  lemma SplitThree(a: string, b: string, d: string, c: char)
    ensures Split(a + [c] + b + [c] + d, c) == Split(a, c) + Split(b, c) + Split(d, c)
  {
    assert a + [c] + b + [c] + d == a + [c] + (b + [c] + d);
    SplitConcat(a, b + [c] + d, c);
    SplitConcat(b, d, c);
  }

  /** Three separator-free parts joined by the separator split back into them. */
  lemma SplitThreePlain(a: string, b: string, d: string, c: char)
    requires c !in a && c !in b && c !in d
    ensures Split(a + [c] + b + [c] + d, c) == [a, b, d]
  {
    assert a + [c] + b + [c] + d == a + [c] + (b + [c] + d);
    SplitFirst(a, b + [c] + d, c);
    SplitFirst(b, d, c);
  }

  /** Splitting at the first separator: the text before it is the first segment. */
  lemma SplitFirst(a: string, b: string, c: char)
    requires c !in a
    ensures Split(a + [c] + b, c) == [a] + Split(b, c)
  {
    IndexOfAfterPrefix(a, b, c);
    var s := a + [c] + b;
    assert s[..|a|] == a && s[|a| + 1..] == b;
  }

  /** The second segment of a split is the text between the first and the second
      separator, or to the end when there is no second one. */
  lemma SplitSecond(before: string, mid: string, after: string, c: char)
    requires c !in before && c !in mid
    requires after == [] || after[0] == c
    ensures |Split(before + [c] + mid + after, c)| >= 2
    ensures Split(before + [c] + mid + after, c)[1] == mid
  {
    var rest := mid + after;
    assert before + [c] + mid + after == before + [c] + rest;
    SplitFirst(before, rest, c);
    SplitHead(mid, after, c);
  }

  lemma SplitHead(mid: string, after: string, c: char)
    requires c !in mid
    requires after == [] || after[0] == c
    ensures Split(mid + after, c)[0] == mid
  {
    if after != [] {
      assert mid + after == mid + [c] + after[1..];
      SplitFirst(mid, after[1..], c);
    }
  }

  /** The last `c` in `s` splits it into the text before it and the `c`-free text after it. */
  function SplitLast(s: string, c: char): (r: Option<(string, string)>)
    ensures r.None? <==> c !in s
    ensures r.Some? ==> s == r.value.0 + [c] + r.value.1 && c !in r.value.1
  {
    if c !in s then None
    else
      var i := LastIndexOf(s, c);
      assert s == s[..i] + [c] + s[i + 1..];
      Some((s[..i], s[i + 1..]))
  }

  lemma SplitLastOfConcat(a: string, b: string, c: char)
    requires c !in b
    ensures SplitLast(a + [c] + b, c) == Some((a, b))
  {
    LastIndexOfBeforeSuffix(a, b, c);
    var s := a + [c] + b;
    assert s[..|a|] == a && s[|a| + 1..] == b;
  }

  // ---------------------------------------------------------------- prefixes and whitespace

  /** `s.startswith(p)`. */
  predicate StartsWith(s: string, p: string) {
    |p| <= |s| && s[..|p|] == p
  }

  /** `s.endswith(p)`. */
  predicate EndsWith(s: string, p: string) {
    |p| <= |s| && s[|s| - |p|..] == p
  }

  /** Python's `str.isspace` for one character: tab to carriage return, the four
      information separators and space, and the Unicode spaces above ASCII. */
  predicate IsSpace(c: char) {
    || ('\t' <= c <= '\r') || ('\U{1C}' <= c <= ' ')
    || c == '\U{85}' || c == '\U{A0}' || c == '\U{1680}' || ('\U{2000}' <= c <= '\U{200A}')
    || c == '\U{2028}' || c == '\U{2029}' || c == '\U{202F}' || c == '\U{205F}' || c == '\U{3000}'
  }

  /** A string that neither begins nor ends with whitespace. */
  predicate Trimmed(s: string) {
    s == [] || (!IsSpace(s[0]) && !IsSpace(s[|s| - 1]))
  }

  /** `s.strip()`: leading and then trailing whitespace removed one character at a
      time. */
  function Strip(s: string): (r: string)
    ensures Trimmed(r)
    decreases |s|
  {
    if |s| > 0 && IsSpace(s[0]) then Strip(s[1..])
    else if |s| > 0 && IsSpace(s[|s| - 1]) then Strip(s[..|s| - 1])
    else s
  }

  /** A string without outer whitespace is left as it is. */
  lemma StripTrimmed(s: string)
    requires Trimmed(s)
    ensures Strip(s) == s
  {
  }

  /** `r` is `s` with a whitespace-only prefix of length `k` and a whitespace-only
      suffix cut off. */
  predicate TrimOf(s: string, r: string, k: nat) {
    && k + |r| <= |s|
    && r == s[k..k + |r|]
    && (forall i :: 0 <= i < k ==> IsSpace(s[i]))
    && (forall i :: k + |r| <= i < |s| ==> IsSpace(s[i]))
  }

  /** `Strip(s)` is what remains of `s` once a whitespace prefix and a whitespace
      suffix are cut off; `k` is the length of the prefix. */
  lemma {:induction false} StripIsTrim(s: string) returns (k: nat)
    ensures TrimOf(s, Strip(s), k)
    decreases |s|
  {
    var r := Strip(s);
    if |s| > 0 && IsSpace(s[0]) {
      var t := s[1..];
      var k' := StripIsTrim(t);
      k := k' + 1;
      assert r == t[k'..k' + |r|];
      forall i | 0 < i < k
        ensures IsSpace(s[i])
      {
        assert s[i] == t[i - 1];
      }
      forall i | k + |r| <= i < |s|
        ensures IsSpace(s[i])
      {
        assert s[i] == t[i - 1];
      }
    } else if |s| > 0 && IsSpace(s[|s| - 1]) {
      var t := s[..|s| - 1];
      k := StripIsTrim(t);
      assert r == t[k..k + |r|];
      forall i | k + |r| <= i < |s| - 1
        ensures IsSpace(s[i])
      {
        assert s[i] == t[i];
      }
    } else {
      k := 0;
    }
  }

  lemma StripIdempotent(s: string)
    ensures Strip(Strip(s)) == Strip(s)
  {
    StripTrimmed(Strip(s));
  }

  /** Every character of `Strip(s)` occurs in `s`. */
  lemma StripChars(s: string, c: char)
    requires c in Strip(s)
    ensures c in s
  {
    var r := Strip(s);
    var k := StripIsTrim(s);
    var i :| 0 <= i < |r| && r[i] == c;
    assert s[k + i] == r[i];
  }

  // ---------------------------------------------------------------- integers

  predicate IsDigit(c: char) {
    '0' <= c <= '9'
  }

  function DigitChar(d: nat): (c: char)
    requires d < 10
    ensures IsDigit(c)
  {
    ('0' as int + d) as char
  }

  /** The decimal digits of `n`, most significant first, without leading zeros. */
  function NatToString(n: nat): (s: string)
    ensures |s| >= 1
    ensures forall i :: 0 <= i < |s| ==> IsDigit(s[i])
    ensures s[0] == '0' <==> n == 0
    decreases n
  {
    if n < 10 then [DigitChar(n)] else NatToString(n / 10) + [DigitChar(n % 10)]
  }

  /** `str(n)` for a Python `int`. */
  function IntToString(n: int): (s: string)
    ensures |s| >= 1
    ensures forall i :: 0 < i < |s| ==> IsDigit(s[i])
    ensures IsDigit(s[0]) || s[0] == '-'
    ensures IsDigit(s[0]) && |s| > 1 ==> s[0] != '0'
    ensures s[0] == '-' ==> n < 0 && |s| > 1 && s[1] != '0'
  {
    if n < 0 then "-" + NatToString(-n) else NatToString(n)
  }

  predicate AllDigits(s: string) {
    forall i :: 0 <= i < |s| ==> IsDigit(s[i])
  }

  function ParseNat(s: string): nat
    requires AllDigits(s)
  {
    if |s| == 0 then 0
    else 10 * ParseNat(s[..|s| - 1]) + (s[|s| - 1] as int - '0' as int)
  }

  /** `int(s)` restricted to the strings `str(n)` can produce. */
  function ParseInt(s: string): Option<int>
  {
    if |s| > 0 && AllDigits(s) then Some(ParseNat(s))
    else if |s| > 1 && s[0] == '-' && AllDigits(s[1..]) then Some(0 - ParseNat(s[1..]))
    else None
  }

  lemma {:induction false} ParseNatToString(n: nat)
    ensures ParseNat(NatToString(n)) == n
    decreases n
  {
    if n >= 10 {
      var s := NatToString(n);
      assert s[..|s| - 1] == NatToString(n / 10);
      ParseNatToString(n / 10);
    }
  }

  /** `str` and `int` are inverse on Python integers. */
  lemma ParseIntToString(n: int)
    ensures ParseInt(IntToString(n)) == Some(n)
  {
    var s := IntToString(n);
    if n < 0 {
      assert s[1..] == NatToString(-n);
      assert !AllDigits(s) by { assert !IsDigit(s[0]); }
      ParseNatToString(-n);
    } else {
      ParseNatToString(n);
    }
  }
}

=== FILE: wrappers.dfy ===
/** The two wrappers used throughout the model: `Option` for a JSON key
    that may be absent and `Result` for a step that can raise. */
module Wrappers {

  datatype Option<+T> = None | Some(value: T) {

    /** The value, or `default` when absent (Python's `d.get(key, default)`). */
    function GetOr(default: T): T {
      match this
      case Some(v) => v
      case None => default
    }
  }

  datatype Result<+R, +E> = Success(value: R) | Failure(error: E)
}
